=== FILE: README.md ===
# angularjs-loader, modelled in Dafny

`angularjs-loader` loads the scripts of an AngularJS application in
dependency order and bootstraps the application once every script it
started has finished. Its core is a small amount of sequential
bookkeeping:

- a **lock table**: a map from a path or module name to "in flight" or
  "done", plus a counter, whose first return to zero schedules the
  bootstrap;
- a **path resolver**: an explicit `null` override, a pipeline of
  transforms, URI passthrough, root prefixing and the `.js` suffix;
- a hand-written **deferred** (promise);
- **`loaderFn`**, which builds the checker map, pre-locks
  `options.modules`, skips paths that are null or already locked, and
  then fetches the rest either all at once (with a counter) or one after
  another (with a chain of `recursiveLoader` calls);
- `extend`, `config`, `init` and the `ext:` lock and unlock of the public
  API;
- the wrapper around `angular.module`, which locks the dependencies it
  fetches and unlocks the module it defines, both by **name**.

The model is organised as follows:

- `wrappers.dfy`: `Option`.
- `maps.dfy`: objects as dictionaries with their key order, and `extend`, both as a function and as the key loop of the source.
- `futures.dfy`: the deferred, both as settlement values (`OnResolve`, `OnReject`) and as the class `Deferred`, whose closure variables become fields.
- `paths.dfy`: `transformPath` and `pathFromModuleName`.
- `locks.dfy`: the lock table and its invariants.
- `checkers.dfy`: checker-map construction, normalisation and evaluation.
- `configuration.dfy`: the configuration record, with the merge of `config()` and the replacement of `init`.
- `engine.dfy`: the whole loader state as one value. Each public call and each asynchronous completion is an event that maps a state to a new state and an optional thrown error. The completions are a script's `load` or `error` event, the `insertScript` timer, and one checker-interval tick.
- `outcomes.dfy`: what each event does to the locks, the fetches, the calls and the polls, and which error it throws.
- `invariants.dfy`: every event keeps the lock table consistent and never forgets a lock. Hence the bootstrap is scheduled at most once.
- `scheduling.dfy`: what one `loaderFn` call locks and fetches.
- `scenarios.dfy`: complete runs from start-up.
- `loader.dfy`: the class `AngularLoader.Loader`. Its fields are the loader's module-level variables, and its methods update them step by step with the loops of the source. Each method is proved to reach exactly the state the engine function of the same name computes, so everything proved about the engine holds of the object.

Environment effects are parameters of the events:

- the set of defined global names (`env`), read by checkers;
- the current time (`now`), read by checker polls;
- whether `angular.module` was captured (`hostCaptured`).

A scheduled bootstrap is counted in `bootstraps` and is not run.

Where the code and its documentation disagree, the model follows the code:

- **Sequential failure.** When a script in a sequential load fails, its error subscriber throws (angularjs-loader.js:351-353). The returned promise is never rejected and stays pending.
- **Checker timeout.** A checker that times out throws inside the interval callback (angularjs-loader.js:330-333). The returned promise is not rejected.
- **Checker precedence.** `extend(checkerMap, config.checker)` uses the default `override = true` (angularjs-loader.js:275). A checker configured globally therefore replaces the checker given at the call site.
- **One shared checker variable.** The normalisation loop declares `fn` with `var` (angularjs-loader.js:280-296), so every wrapper it creates reads the same variable, and only after the loop has ended. Every name checker therefore tests the entry enumerated last. If that entry is a string or a list, every wrapper tests its names. If it is a function without parameters, every wrapper passes at once. If it is a function with parameters, no wrapper ever passes, since `window[undefined]` is undefined. `Checkers.ConfiguredNameUnread` and `Checkers.NamesTestLastEntry` state two instances.
- **Value of a parallel call.** The success subscriber of a parallel fetch is bound with `bind(successFn, 0, [name, p])` (angularjs-loader.js:390), and `bind` ignores the arguments of the call (angularjs-loader.js:62-66). The `load` event is therefore dropped, and a parallel call resolves with `undefined`.

## Model

The functions of `engine.dfy` are the model itself and carry at most frame
facts of their own; what each one does is stated by the lemmas below:

- `Engine.Load`: the `Scheduling.Load*` rows;
- `Engine.Parallel`, `Visit` and `ParallelDone`: `Scheduling.VisitAppends`, `ParallelAppends`, `ParallelFetchesFromRequests`, `ParallelCoversRequests` and `LoadParallelCounts`;
- `Engine.Advance` and `AddForward`: the `Scheduling.Advance*` rows;
- `Engine.PreLock`, `Dependencies`, `RegisterModule`, `Init`, `UnlockOnChecker`, `PollTick`, `Forward`, `ScriptLoaded`, `ScriptFailed`, `ScriptTimer`, `ExtLock` and `ExtUnlock`: the `Outcomes` rows;
- `Engine.Lock`, `Unlock` and `Config`: the `Locks` rows and `Configuration.Merge`;
- `Engine.Step`: `Invariants.StepKeepsValid` and `AngularLoader.Loader.Handle`.

| member | source | states |
|---|---|---|
| Maps.Extend | angularjs-loader.js:50-60 | the result has the keys of both maps; an extension entry wins when `override` is set or the key is new, otherwise the original entry stays |
| Maps.Put | angularjs-loader.js:56 | `orig[name] = value` sets the entry; a new key is enumerated last and an existing key keeps its place |
| Maps.AssignEntries | angularjs-loader.js:50-60 | the key loop adds exactly the listed keys; a listed key takes the extension's value when `override` is set or the key is new, and keeps its value otherwise |
| Maps.AssignKeepsOrder | angularjs-loader.js:50-60 | the keys already present keep their places at the front of the enumeration order |
| Maps.ExtendObjectMeaning | angularjs-loader.js:50-60 | `extend` on objects leaves exactly the entries of `Extend`, with the original keys first in their old order |
| Maps.ExtendByKeys | angularjs-loader.js:50-60 | the key-by-key loop over the extension, in its enumeration order, leaves exactly `ExtendObject` |
| Futures.OnResolve | angularjs-loader.js:83-94 | resolution succeeds exactly when the deferred is pending, and then settles it with the given value |
| Futures.OnReject | angularjs-loader.js:95-103 | rejection always succeeds, whatever the current state, and settles with the given reason |
| Futures.Deferred.constructor | angularjs-loader.js:71-78 | a new deferred is pending with no subscribers |
| Futures.Deferred.IsPending | angularjs-loader.js:80-82 | reports whether the deferred is still pending |
| Futures.Deferred.Resolve | angularjs-loader.js:83-94 | refused, changing nothing, unless pending; otherwise it calls every queued success subscriber in registration order with the value and ends resolved |
| Futures.Deferred.Reject | angularjs-loader.js:95-103 | with no pending guard, calls every queued error subscriber in order with the reason and ends rejected |
| Futures.Deferred.Then | angularjs-loader.js:105-123 | returns the same promise; when pending, queues the given callbacks; when settled, calls only the matching given callback at once with the stored value or reason |
| Futures.SubscribersInOrder | angularjs-loader.js:83-123 | two subscribers queued before resolution fire in registration order, one added afterwards fires at once, and no error subscriber runs |
| Futures.RejectAfterResolve | angularjs-loader.js:83-103 | a second resolve is refused, but a later reject goes through, runs the error subscriber and leaves the deferred rejected |
| Paths.TransformLoop | angularjs-loader.js:133-143 | the `for` loop over the transform list computes `TransformPath` |
| Paths.TransformPath | angularjs-loader.js:133-143 | the name comes back unchanged when the list is empty, its first entry is falsy, or the first transform returns `null` |
| Paths.StopsAtFalsy | angularjs-loader.js:135 | transforms after the first falsy entry of the list have no effect |
| Paths.Compose | angularjs-loader.js:133-143 | a list whose transforms all return a value runs as the first part followed by the rest, fed the same original name |
| Paths.StopsAtNull | angularjs-loader.js:137-140 | a transform returning `null` yields the previous path and stops the pipeline |
| Paths.PathFromModuleName | angularjs-loader.js:145-148 | the result is `null` exactly when the name's path entry is `null` |
| Paths.ResolvedShape | angularjs-loader.js:145-167 | a resolved path is never empty; a URI seed comes back unchanged; otherwise the result is the root prefix followed by the seed, plus `.js` exactly when the seed does not end in `.js`, so it always ends in `.js` |
| Paths.ExampleRooted | angularjs-loader.js:157-165 | `foo` under root `r` resolves to `r/foo.js` |
| Paths.ExampleUri | angularjs-loader.js:153-156 | an `http://` address is returned unchanged, even with a root |
| Paths.ExampleRootRelative | angularjs-loader.js:157-165 | a path starting with `/` takes no root prefix and keeps its `.js` |
| Locks.Lock | angularjs-loader.js:178-184 | `lock` never schedules a bootstrap |
| Locks.Unlock | angularjs-loader.js:186-200 | `unlock` never adds or removes a key; the flag ends set exactly when it was set or this call scheduled the bootstrap, and scheduling requires the flag clear and no error |
| Locks.LockOutcome | angularjs-loader.js:178-184 | `lock` throws exactly for a key already present, changing nothing; otherwise it adds the key as in flight and counts it |
| Locks.UnlockOutcome | angularjs-loader.js:186-200 | `unlock` throws "was not loaded" for an absent key and "was loaded twice" for a done key, both before any change; otherwise the entry becomes done and the count drops by one |
| Locks.BootstrapWhenFirstZero | angularjs-loader.js:195-201 | the bootstrap is scheduled exactly when an in-flight key is unlocked with the count at one and the flag clear; with the flag set, the same unlock throws "App already bootstrapped"; the flag counts the bootstraps |
| Locks.KeysOnlyGrow | angularjs-loader.js:170-200 | neither `lock` nor `unlock` removes a key or turns a done entry back to in flight, so `locked` stays true once true |
| Locks.LockKeepsConsistent | angularjs-loader.js:178-184 | `lock` keeps the count equal to the number of in-flight entries |
| Locks.UnlockKeepsConsistent | angularjs-loader.js:186-200 | `unlock` keeps the count equal to the number of in-flight entries, also when it throws after the update |
| Locks.BootstrapMeansAllDone | angularjs-loader.js:195-201 | when the bootstrap is scheduled, every entry of the table is done |
| Locks.BootstrapAtMostOnce | angularjs-loader.js:186-210 | over any sequence of locks and unlocks, thrown errors or not, the bootstraps scheduled are exactly the change of the flag, so at most one in all |
| Locks.RunKeepsConsistent | angularjs-loader.js:170-210 | any sequence of locks and unlocks keeps the count equal to the number of in-flight entries, so it is never negative |
| Checkers.WrapperKeepsMeaning | angularjs-loader.js:284-296 | a wrapper reading a string or a list of names holds exactly when every name is a defined global, as documented |
| Checkers.LastKeepsItsMeaning | angularjs-loader.js:280-296 | the normalised checker of the key enumerated last means what its configured checker means, whatever its kind |
| Checkers.WrappersShareLast | angularjs-loader.js:280-296 | every non-function entry becomes the wrapper of the entry enumerated last |
| Checkers.NormalizeAll | angularjs-loader.js:280-296 | the rewrite loop, in enumeration order with one `fn` for all wrappers, leaves exactly `Normalized`: functions kept, every other entry the wrapper of the last entry |
| Checkers.CallSite | angularjs-loader.js:263-273 | without a checker object, the call's own checkers are keyed by exactly the requested keys |
| Checkers.BuildMeaning | angularjs-loader.js:263-297 | the map covers the call-site keys and the configured keys; a configured function replaces the call's own; a call-site function not overridden stays; every name checker is the wrapper of the entry enumerated last after the merge |
| Checkers.ConfiguredNameUnread | angularjs-loader.js:280-296 | with `x` configured to the global `X` and a call for `x` then `a`, `x`'s checker passes while `X` is undefined |
| Checkers.NamesTestLastEntry | angularjs-loader.js:280-296 | with `a` needing `A` and `b` needing `B`, `a`'s checker fails while `A` is defined and `B` is not |
| Checkers.Check | angularjs-loader.js:289-296 | the loop over the names returns exactly whether the checker holds in the environment |
| Checkers.AbsentPassesUnlessConfigured | angularjs-loader.js:263-275 | without a `checker` option, every requested key has a checker that holds at once, unless the configuration gives it one |
| Configuration.Merge | angularjs-loader.js:443-447 | `config()` keeps every existing path and checker entry, adds the new keys after the old ones, and appends the new transforms to the old list |
| Configuration.Replace | angularjs-loader.js:460 | `extend(config, options.config)` replaces each field given as a whole and keeps each field not given |
| Configuration.MergeKeepsExplicitPaths | angularjs-loader.js:443-447 | a name with an explicit path entry resolves the same way after any later `config()` |
| Configuration.MergeChainsTransforms | angularjs-loader.js:446 | when the old transform list runs to completion, the new transforms continue from its result |
| Configuration.MissingTransformsFreezePipeline | angularjs-loader.js:446 | a `config()` call without `pathTransform` appends `undefined`, which makes every transform added later ineffective |
| Outcomes.PreLockLocksModules | angularjs-loader.js:303-310 | every listed module is locked afterwards; the new ones are in flight; no other entry and nothing else in the state changes |
| Outcomes.DependenciesLockNames | angularjs-loader.js:423-433 | the dependency loop locks, by name and in flight, exactly the dependencies whose path is neither null nor empty and that were not locked; besides the table only the fetches change |
| Outcomes.DependenciesAppendFetches | angularjs-loader.js:423-433 | the dependency loop only appends fetches, each pending and listened to by nobody |
| Outcomes.RegisterModuleOutcome | angularjs-loader.js:407-440 | without the original `angular.module` it throws and changes nothing; a lookup changes nothing; a definition unlocks its own name exactly when that name resolves, throwing "was not loaded" when the name is not locked |
| Outcomes.InitOutcome | angularjs-loader.js:449-472 | the options and configuration are taken in any case; a missing `app` then throws with the lock table untouched; an app name already locked throws "is being loaded twice"; otherwise, without `boot`, the app name is the one lock added and the loader is initialized; with `boot`, the outcome is that of loading the app from the state `init` without `boot` reaches, without error |
| Outcomes.UnlockOnCheckerOutcome | angularjs-loader.js:312-336 | an in-flight lock is released at once exactly when the key has no checker or its checker holds; otherwise one active poll is added and the table is untouched |
| Outcomes.PollTickOutcome | angularjs-loader.js:324-334 | a stopped poll does nothing; the lock is released when the checker holds; "Timed out" is thrown exactly when the checker fails and `now - start` has reached the timeout; in both cases the poll stops, and otherwise nothing changes |
| Outcomes.ForwardOutcome | angularjs-loader.js:361-365 | without a forwarding subscription the fetch just settles; the first one resolves a pending call with the value; a second throws "Deferred resolved twice." |
| Outcomes.ParallelLoadedOutcome | angularjs-loader.js:385-390 | the load of a parallel fetch drops the counter by one; the call resolves with `undefined` exactly when the counter reaches zero; when nothing throws, the script's lock is released exactly when the key has no checker or its checker holds, a poll is started otherwise, and the fetch settles with the event |
| Outcomes.SequenceLoadedOutcome | angularjs-loader.js:338-366 | when the load of a sequential fetch throws nothing: the call's next fetch, if any, is the fetchable path of the last request taken, under its key, and otherwise the list is used up; the script's lock is released exactly when the key has no checker or its checker holds; the call resolves with the load event exactly when the list was used up or the fetch already had a subscription, and it was pending then; the fetch settles with the event |
| Outcomes.ScriptLoadedSettles | angularjs-loader.js:83-94 | a load event for a settled fetch throws "Deferred resolved twice." and changes nothing; a dependency fetch just settles |
| Outcomes.ScriptFailedOutcome | angularjs-loader.js:351-392 | an error rejects a parallel call and its fetch, even after the call resolved; a dependency fetch alone is rejected; in a sequential chain the subscriber throws and nothing settles |
| Outcomes.ScriptTimerOutcome | angularjs-loader.js:226-230 | the timer does nothing once the fetch has settled, and otherwise fails it with the timeout error |
| Outcomes.ExtLockHolds | angularjs-loader.js:474-476 | `lock(name)` succeeds exactly when `ext:name` is not locked, and then keeps the count above zero, so the bootstrap waits |
| Outcomes.ExtPair | angularjs-loader.js:474-479 | `lock(name)` then `unlock(name)` leaves `ext:name` done, the count where it was and no other key changed |
| Invariants.StepKeepsValid | angularjs-loader.js:170-480 | every event keeps the count equal to the number of in-flight locks, counts one scheduled bootstrap exactly when the flag is set, keeps every fetch tied to an existing call, and never removes a lock or undoes a done one |
| Invariants.Run | angularjs-loader.js:170-480 | along any sequence of events, the invariant holds and locks only grow |
| Invariants.BootstrapAtMostOnce | angularjs-loader.js:193-201 | from start-up, whatever the events, at most one bootstrap is ever scheduled and the lock count stays consistent |
| Scheduling.VisitAppends | angularjs-loader.js:375-391 | one turn of the parallel loop changes nothing when the request's path is null, empty or locked; otherwise it issues exactly one fetch, pending, of the request's resolved path under the request's key, counted on the call and locked in flight |
| Scheduling.ParallelAppends | angularjs-loader.js:373-393 | the parallel loop only appends fetches, each pending and for a non-empty path that was not locked before; it counts each one; it locks exactly the paths it fetches, as in flight, and leaves earlier locks as they were; it never fetches one path twice |
| Scheduling.ParallelFetchesFromRequests | angularjs-loader.js:373-391 | conversely, every fetch the loop issues, and so every lock it takes, is the resolved path of one of the requests, with that request's key on its link |
| Scheduling.ParallelCoversRequests | angularjs-loader.js:373-393 | after the loop, every request whose path resolves to a non-empty string is locked; a request without `name` is the only failure |
| Scheduling.AdvanceSkips | angularjs-loader.js:338-346 | the sequential step takes requests from the front of the list; every one it passed over had a null, empty or locked path; it fetches at most one script |
| Scheduling.AdvanceSuffix | angularjs-loader.js:338-346 | what the sequential step leaves of the call's list is a suffix of it |
| Scheduling.AdvanceFetchesAtMostOne | angularjs-loader.js:338-353 | the sequential step fetches at most one script |
| Scheduling.AdvanceSkipsUnfetchable | angularjs-loader.js:338-346 | every request the sequential step took before the last had a null, empty or locked path |
| Scheduling.AdvanceFetchesLastTaken | angularjs-loader.js:338-353 | when the step fetches, the script is the path of the last request taken; that path was fetchable; it is the one lock added |
| Scheduling.AdvanceKeeps | angularjs-loader.js:338-367 | the sequential step keeps the call's checkers and timeout, never settles the call when it continues from a fetch, and leaves earlier fetches untouched when it fetches |
| Scheduling.AdvanceExhausts | angularjs-loader.js:355-366 | when the step fetches nothing, the list is used up and no lock was taken; the call then resolves with `undefined` if nothing was fetched yet, or gains one more subscription to the fetch that is resolving |
| Scheduling.LoadNeedsInit | angularjs-loader.js:246-248 | a load before `init` throws and changes nothing |
| Scheduling.LoadEmptyList | angularjs-loader.js:258-261 | an empty list takes no lock, fetches nothing and returns a promise already resolved with `undefined` |
| Scheduling.LoadParallelCounts | angularjs-loader.js:373-396 | a parallel call's counter equals the number of fetches it issued; its promise is resolved with `true` exactly when it issued none, and is pending otherwise |
| Scheduling.LoadSequentialStarts | angularjs-loader.js:338-370 | a sequential call first fetches at most one script, the first request whose path is fetchable; when there is none, the promise resolves with `undefined` |
| Scenarios.BootStarts | angularjs-loader.js:449-472 | `init` with `boot` locks the app name and the app's path, and fetches the path in a parallel call |
| Scenarios.InitThenBoot | angularjs-loader.js:449-472 | `init` with `boot` is `init` without it followed by `loaderFn(app)`, from a state where only the app name is locked and `app` resolves to `app.js` |
| Scenarios.LoadApp | angularjs-loader.js:373-393 | from that state, loading the app locks and fetches `app.js` in a parallel call waiting on that one load |
| Scenarios.AppModuleDefined | angularjs-loader.js:423-438 | the app's `angular.module('app', [])` releases the lock on the name; the path stays in flight |
| Scenarios.AppScriptLoaded | angularjs-loader.js:385-390 | the load of the app script resolves the call with `undefined`, releases the last lock and schedules the bootstrap once |
| Scenarios.PathLockNameUnlock | angularjs-loader.js:377-383 | under root `r`, loading `foo` locks `r/foo.js`; the script's own `angular.module('foo', [])` then throws "was not loaded" for `foo` and leaves the path in flight |
| Scenarios.SequenceStarts | angularjs-loader.js:338-353 | a sequential load of `a`, `b`, `c` where `b` is configured to `null` first fetches `a.js` alone |
| Scenarios.InitForABC | angularjs-loader.js:449-472 | `init` with `b` configured to `null` leaves an initialized state with only the app name locked, where `a` and `c` resolve to `a.js` and `c.js` and `b` to `null` |
| Scenarios.LoadABC | angularjs-loader.js:338-353 | from that state, a sequential load of `a`, `b`, `c` locks and fetches `a.js` alone and keeps `b`, `c` for later |
| Scenarios.FirstLoadSkipsNull | angularjs-loader.js:348-350 | the load of `a.js` skips `b`, fetches `c.js`, and releases the lock on `a.js` |
| Scenarios.SecondLoadResolves | angularjs-loader.js:355-366 | with the list used up, the load of `c.js` resolves the call with that load event and releases its lock |
| Scenarios.ParallelFetchesOnce | angularjs-loader.js:373-393 | a parallel load naming `a` twice fetches `a.js` once and waits for that one load |
| AngularLoader.Loader.constructor | angularjs-loader.js:35-47 | the object starts in the initial state, with an empty configuration, no locks and not initialized |
| AngularLoader.Loader.Locked | angularjs-loader.js:174-176 | reports whether the key is in the lock table |
| AngularLoader.Loader.Lock | angularjs-loader.js:178-184 | updates the fields to the engine's `Lock` and keeps the invariant |
| AngularLoader.Loader.Unlock | angularjs-loader.js:186-210 | updates the fields to the engine's `Unlock`, including the update before the "already bootstrapped" error, and keeps the invariant |
| AngularLoader.Loader.ExtLock | angularjs-loader.js:474-476 | locks `ext:` followed by the name |
| AngularLoader.Loader.ExtUnlock | angularjs-loader.js:477-479 | unlocks `ext:` followed by the name |
| AngularLoader.Loader.Config | angularjs-loader.js:443-447 | the two `extend` loops, in key order, and the `concat` leave the configuration `Merge` describes |
| AngularLoader.Loader.Init | angularjs-loader.js:449-472 | takes the arguments and the configuration before checking `app`, then locks the app name, sets `initialized`, and loads the app when asked |
| AngularLoader.Loader.PreLock | angularjs-loader.js:303-310 | the loop locks each module name not yet locked |
| AngularLoader.Loader.BuildCheckers | angularjs-loader.js:263-297 | the call-site object, extended by the configured checkers and rewritten by the loop with one shared `fn`, is exactly `Checkers.Build` |
| AngularLoader.Loader.Visit | angularjs-loader.js:375-391 | one turn of the parallel loop leaves the engine's `Visit`: a null, empty or locked path is skipped, otherwise it is counted, locked and fetched |
| AngularLoader.Loader.Parallel | angularjs-loader.js:373-393 | the `while` loop leaves the state and error of the engine's `Parallel` |
| AngularLoader.Loader.Advance | angularjs-loader.js:338-367 | the skip loop replacing the self-call leaves the state and error of the engine's `Advance` |
| AngularLoader.Loader.Exhausted | angularjs-loader.js:355-366 | with the list used up, resolves the call when nothing was fetched and otherwise subscribes to the last fetch, as the engine's `Advance` does |
| AngularLoader.Loader.Load | angularjs-loader.js:245-405 | builds the checker map with the `extend` and normalisation loops, pre-locks, and runs the chosen mode, leaving the engine's `Load` |
| AngularLoader.Loader.UnlockOnChecker | angularjs-loader.js:312-336 | unlocks at once when the key has no checker or its checker holds, otherwise starts a poll |
| AngularLoader.Loader.Forward | angularjs-loader.js:361-365 | the subscriptions a sequential fetch gained while resolving settle the call, and a second one throws |
| AngularLoader.Loader.ScriptLoaded | angularjs-loader.js:348-390 | a script's `load` event leaves the engine's `ScriptLoaded`: a parallel call resolves with `undefined`, and the fetch stays pending when a subscriber throws |
| AngularLoader.Loader.ScriptFailed | angularjs-loader.js:351-392 | a script's `error` event rejects a parallel call and the fetch, and throws in a sequential chain |
| AngularLoader.Loader.ScriptTimer | angularjs-loader.js:226-230 | the timer rejects the fetch only while it is pending |
| AngularLoader.Loader.PollTick | angularjs-loader.js:324-334 | a tick unlocks when the checker holds and throws once the timeout has elapsed; either way the poll stops |
| AngularLoader.Loader.Dependencies | angularjs-loader.js:423-433 | resolves each dependency's path, and locks and fetches it by name unless the path is null or the name is locked |
| AngularLoader.Loader.RegisterModule | angularjs-loader.js:407-440 | throws when `angular.module` was not captured; a lookup changes nothing; a definition handles its dependencies and unlocks its own name when that resolves |
| AngularLoader.Loader.Handle | angularjs-loader.js:170-480 | any event applied to the object leaves exactly the engine's `Step` |

## Left out

- The DOM work of `insertScript` (angularjs-loader.js:212-234) is not modelled. A fetch is a record, and its `load` and `error` events and its timer are separate events.
- Wall-clock timing is left out. The delay of the `insertScript` timer, the 10 ms interval and `Date` become the order of events and the `now` argument of a tick. The bootstrap's `setTimeout` is counted as a scheduled task in `bootstraps`.
- `angular.bootstrap`, the optional bootstrap callback and its `eval` (angularjs-loader.js:202-208, 453-459) are foreign calls and are not modelled.
- The original `angular.module` is not modelled. Its own errors and its return value are left out. Whether it was captured is a parameter (`hostCaptured`).
- `maybeSwapAngularModuleFn` (angularjs-loader.js:236-243) patches a global and is not modelled; the same goes for the `then` that `loaderFn` registers to call it (angularjs-loader.js:399-403).
- The `window[name]` lookups of normalised checkers are left out. The environment is the set of defined names.
- Script-tag discovery, auto-init, the TESTING exports and `angular.requires` (angularjs-loader.js:482-552) are environment set-up and are not modelled.
- `promise.error` (angularjs-loader.js:124-126) calls a method that does not exist and is not modelled.
- Engine.Field: a request object without `src` (sequential mode) or `name` (parallel mode) is modelled as the error `MissingField`. In the source, `pathFromModuleName(undefined)` looks the value up in the path map under the key `"undefined"`; without such an entry it hands `undefined` to the transforms, and with no transforms `path.search` throws a `TypeError` (angularjs-loader.js:151-154).
- Checkers.CallSite: a `checker` option that is an array is not modelled. In the source it would act as a map keyed by index.
- Paths.Transform: a transform returning `undefined`, or a value that is not a string, is not modelled. Transforms return a string or `null`.
- Object keys inherited from `Object.prototype` (for example `constructor`) are not modelled. The source's `in` tests would see them in the lock table and in the path map.
- Engine.PollTick: the message of the timeout error is not modelled. In the source it names the `path` array: empty for a parallel call, and the requests not reached yet for a sequential one.
- Aliasing is not modelled. The source shifts the caller's `path` array, and when the `checker` option is an object it extends and rewrites that very object (angularjs-loader.js:267, 275, 289). The model copies the requests and the checker object into the call, so a caller reusing the object is not modelled.
- Key order: objects enumerate their keys in insertion order. JavaScript enumerates integer-like keys (such as `"0"`) first, in ascending order; that rule is not modelled, and it can change which checker entry the normalisation loop visits last.
- Engine.Key: an object request is keyed in the checker map as `[object Object]`, as in the source. Two object requests therefore share one checker entry.

=== FILE: checkers.dfy ===
/** Readiness checkers (angularjs-loader.js:263-297): per resource, a
    predicate or the names of globals that must be defined. The global
    object is the set of names whose value is not `undefined`. */
module Checkers {
  import Maps

  type Env = set<string>

  /** A checker function, called with the resource key and seeing the
      global object. */
  type Predicate = (string, Env) -> bool

  /** A checker as configured: a function with the number of parameters it
      declares (its `length`), one global name, or several. */
  datatype Checker = Test(f: Predicate, arity: nat) | Global(name: string) | Globals(names: seq<string>)

  /** A checker after the normalisation loop: a function left as it was, a
      wrapper that requires every name of a list to be defined, or a
      wrapper that never holds. */
  datatype Normal = Fn(f: Predicate) | AllDefined(names: seq<string>) | Never

  /** The `checker` option of a load call: absent, one function or one
      global name for every requested resource, or an object by resource. */
  datatype CallChecker = Absent | EachTest(f: Predicate, arity: nat) | EachGlobal(name: string) | ByName(m: Maps.Object<Checker>)

  const AlwaysTrue: Predicate := (key, env) => true

  /** `function() { return true; }`, which declares no parameter. */
  const Default := Test(AlwaysTrue, 0)

  /** Running a normalised checker. */
  function Holds(n: Normal, key: string, env: Env): bool {
    match n
    case Fn(f) => f(key, env)
    case AllDefined(ns) => forall i :: 0 <= i < |ns| ==> ns[i] in env
    case Never => false
  }

  /** What the documentation says a configured checker means. */
  function Means(c: Checker, key: string, env: Env): bool {
    match c
    case Test(f, _) => f(key, env)
    case Global(n) => n in env
    case Globals(ns) => (set i | 0 <= i < |ns| :: ns[i]) <= env
  }

  /** What every wrapper does when it runs, given the checker that the
      loop's one function-scoped `fn` variable held last: a string became a
      one-element list; a function is read as if it were a list, through its
      `length` and its missing indexed entries, and `window[undefined]` is
      never defined. */
  function Wrapper(last: Checker): Normal {
    match last
    case Test(_, n) => if n == 0 then AllDefined([]) else Never
    case Global(n) => AllDefined([n])
    case Globals(ns) => AllDefined(ns)
  }

  /** A wrapper reading a name checker means what the documentation says
      that checker means. */
  lemma WrapperKeepsMeaning(c: Checker, key: string, env: Env)
    requires !c.Test?
    ensures Holds(Wrapper(c), key, env) == Means(c, key, env)
  {
    if c.Global? {
      assert [c.name][0] == c.name;
    } else {
      var ns := c.names;
      if Holds(Wrapper(c), key, env) {
        forall n | n in (set i | 0 <= i < |ns| :: ns[i]) ensures n in env {
          var i :| 0 <= i < |ns| && ns[i] == n;
        }
      } else {
        var i :| 0 <= i < |ns| && ns[i] !in env;
        assert ns[i] in (set j | 0 <= j < |ns| :: ns[j]);
      }
    }
  }

  /** The checker of the key the loop enumerates last. */
  function Last(o: Maps.Object<Checker>): Checker
    requires o.order != []
  {
    o.entries[o.order[|o.order| - 1]]
  }

  /** The map the normalisation loop leaves: functions stay; every other
      entry becomes a wrapper, and all wrappers read the same `fn`, which
      holds the checker of the last key enumerated. */
  function Normalized(merged: Maps.Object<Checker>): map<string, Normal> {
    map k | k in merged.entries ::
      if merged.entries[k].Test? then Fn(merged.entries[k].f) else Wrapper(Last(merged))
  }

  /** Only the key enumerated last is sure to get its own meaning: its
      normalised checker means what the documentation says, whichever kind
      of checker it is. */
  lemma {:induction false} LastKeepsItsMeaning(merged: Maps.Object<Checker>, key: string, env: Env)
    requires merged.order != []
    ensures var last := merged.order[|merged.order| - 1];
      last in Normalized(merged) && Holds(Normalized(merged)[last], key, env) == Means(merged.entries[last], key, env)
  {
    var last := merged.order[|merged.order| - 1];
    if !merged.entries[last].Test? {
      WrapperKeepsMeaning(merged.entries[last], key, env);
    }
  }

  /** Every other name checker tests what the last key's checker
      requires, not its own names. */
  lemma {:induction false} WrappersShareLast(merged: Maps.Object<Checker>, k: string, key: string, env: Env)
    requires k in merged.entries && !merged.entries[k].Test?
    ensures merged.order != []
    ensures Holds(Normalized(merged)[k], key, env) == Holds(Wrapper(Last(merged)), key, env)
  {
  }

  /** The in-place rewrite of the merged object into normalised checkers,
      one key at a time in enumeration order. */
  method NormalizeAll(merged: Maps.Object<Checker>) returns (r: map<string, Normal>)
    ensures r == Normalized(merged)
  {
    r := map[];
    var wrapped: set<string> := {};
    var fn := Default;
    for i := 0 to |merged.order|
      invariant forall k :: k in r ==> k in merged.entries && merged.entries[k].Test? && r[k] == Fn(merged.entries[k].f)
      invariant forall k :: k in wrapped ==> k in merged.entries && !merged.entries[k].Test?
      invariant forall j :: 0 <= j < i ==> merged.order[j] in r || merged.order[j] in wrapped
      invariant i > 0 ==> fn == merged.entries[merged.order[i - 1]]
    {
      var script := merged.order[i];
      fn := merged.entries[script];
      if fn.Test? {
        r := r[script := Fn(fn.f)];
      } else {
        wrapped := wrapped + {script};
      }
    }
    // The wrappers read `fn` only when they run, after the loop.
    r := r + map k | k in wrapped :: Wrapper(fn);
    forall k | k in merged.entries ensures k in r {
      var j :| 0 <= j < |merged.order| && merged.order[j] == k;
    }
  }

  /** The object a call starts from: the option itself when it is an
      object, otherwise one entry per requested key, assigned in the order
      of the keys. A falsy option (absent or the empty string) becomes the
      always-true function. */
  function CallSite(opt: CallChecker, keys: seq<string>): (r: Maps.Object<Checker>)
    ensures !opt.ByName? ==> forall k :: k in r.entries <==> k in keys
  {
    var each := match opt
      case EachTest(f, n) => Test(f, n)
      case EachGlobal(n) => if n == "" then Default else Global(n)
      case _ => Default;
    if opt.ByName? then opt.m
    else
      var r := Maps.Assign(Maps.Obj([], map[]), keys, map k | k in keys :: each, true);
      Maps.AssignEntries(Maps.Obj([], map[]), keys, map k | k in keys :: each, true);
      r
  }

  /** `extend(checkerMap, config.checker)` with its default override, then
      the normalisation loop. */
  function Build(opt: CallChecker, keys: seq<string>, configured: Maps.Object<Checker>): map<string, Normal> {
    Normalized(Maps.ExtendObject(CallSite(opt, keys), configured, true))
  }

  /** A call's checkers cover its own keys and the configured ones; a
      configured checker replaces the call's own, functions keep their
      meaning, and every name checker reads the checker of the key
      enumerated last. */
  lemma BuildMeaning(opt: CallChecker, keys: seq<string>, configured: Maps.Object<Checker>)
    ensures var r := Build(opt, keys, configured);
      && r.Keys == CallSite(opt, keys).entries.Keys + configured.entries.Keys
      && (forall k :: k in configured.entries && configured.entries[k].Test? ==> r[k] == Fn(configured.entries[k].f))
      && (forall k :: k in r && k !in configured.entries && CallSite(opt, keys).entries[k].Test? ==>
            r[k] == Fn(CallSite(opt, keys).entries[k].f))
    ensures var r := Build(opt, keys, configured); var merged := Maps.ExtendObject(CallSite(opt, keys), configured, true);
      forall k :: k in merged.entries && !merged.entries[k].Test? ==> k in r && merged.order != [] && r[k] == Wrapper(Last(merged))
  {
    Maps.ExtendObjectMeaning(CallSite(opt, keys), configured, true);
  }

  /** Without a checker option every requested key gets a checker that
      passes at once, unless the configuration gives it one. */
  lemma {:induction false} AbsentPassesUnlessConfigured(keys: seq<string>, configured: Maps.Object<Checker>, k: string, env: Env)
    requires k in keys && k !in configured.entries
    ensures k in Build(Absent, keys, configured)
    ensures Holds(Build(Absent, keys, configured)[k], k, env)
  {
    Maps.AssignEntries(Maps.Obj([], map[]), keys, map j | j in keys :: Default, true);
    BuildMeaning(Absent, keys, configured);
  }

  /** A configured name checker that is not enumerated last is not
      consulted: with `x` configured to the global `X` and the call asking
      for `x` then `a`, `x`'s checker reads `a`'s always-true function,
      whose `length` is 0, and passes while `X` is undefined. */
  lemma ConfiguredNameUnread()
    ensures var configured := Maps.Obj(["x"], map["x" := Global("X")]);
      var r := Build(Absent, ["x", "a"], configured);
      && "x" in r && Holds(r["x"], "x", {})
      && !Means(configured.entries["x"], "x", {})
  {
    var site := Maps.Obj(["x", "a"], map["x" := Default, "a" := Default]);
    CallSiteXA();
    var configured := Maps.Obj(["x"], map["x" := Global("X")]);
    var merged := Maps.Obj(["x", "a"], map["x" := Global("X"), "a" := Default]);
    Maps.AssignFirst(site, configured.order, configured.entries, true);
    assert configured.order[1..] == [];
    assert Maps.ExtendObject(site, configured, true) == merged;
    assert Last(merged) == Default;
  }

  /** Without an option, the call's own object lists the keys in order,
      each with the always-true function. */
  lemma CallSiteXA()
    ensures CallSite(Absent, ["x", "a"]) == Maps.Obj(["x", "a"], map["x" := Default, "a" := Default])
  {
    var keys := ["x", "a"];
    var ext := map k | k in keys :: Default;
    var empty: Maps.Object<Checker> := Maps.Obj([], map[]);
    var o1 := Maps.Put(empty, "x", Default);
    Maps.AssignFirst(o1, keys[1..], ext, true);
    assert keys[1..][1..] == [];
    Maps.AssignFirst(empty, keys, ext, true);
  }

  /** Two name checkers both test the names of the one enumerated last:
      with `a` needing `A` and `b` needing `B`, `a`'s checker fails while
      `A` is defined and `B` is not. */
  lemma NamesTestLastEntry()
    ensures var m := Maps.Obj(["a", "b"], map["a" := Global("A"), "b" := Global("B")]);
      var r := Build(ByName(m), ["a", "b"], Maps.Obj([], map[]));
      && "a" in r && !Holds(r["a"], "a", {"A"})
      && Means(m.entries["a"], "a", {"A"})
  {
    var m := Maps.Obj(["a", "b"], map["a" := Global("A"), "b" := Global("B")]);
    var empty: Maps.Object<Checker> := Maps.Obj([], map[]);
    assert Maps.ExtendObject(m, empty, true) == m;
    assert Last(m) == Global("B");
    assert Wrapper(Global("B")) == AllDefined(["B"]);
    assert !Holds(AllDefined(["B"]), "a", {"A"}) by {
      assert ["B"][0] !in {"A"};
    }
  }

  /** The body of a normalised name checker: stop at the first name that
      is not defined. */
  method Check(n: Normal, key: string, env: Env) returns (ready: bool)
    ensures ready == Holds(n, key, env)
  {
    match n
    case Fn(f) =>
      ready := f(key, env);
    case Never =>
      ready := false;
    case AllDefined(ns) =>
      var i := 0;
      while i < |ns|
        invariant 0 <= i <= |ns|
        invariant forall j :: 0 <= j < i ==> ns[j] in env
      {
        if ns[i] !in env {
          return false;
        }
        i := i + 1;
      }
      ready := true;
  }
}

=== FILE: configuration.dfy ===
/** The process-wide configuration (angularjs-loader.js:35-39) and its two
    merges: `config(cfg)` (angularjs-loader.js:443-448), where existing
    entries win and transforms are appended, and the shallow
    `extend(config, options.config)` of `init` (angularjs-loader.js:460),
    where given fields replace the old ones wholesale. */
module Configuration {
  import opened Wrappers
  import Maps
  import Paths
  import Checkers

  datatype Config = Config(
    path: Maps.Object<Paths.Override>,
    checker: Maps.Object<Checkers.Checker>,
    transforms: seq<Paths.TransformEntry>)

  const Initial := Config(Maps.Obj([], map[]), Maps.Obj([], map[]), [])

  /** The `pathTransform` field of a `config()` argument: missing (which
      `concat` appends as one `undefined` entry), one function, or a list. */
  datatype TransformArg = NoTransforms | OneTransform(f: Paths.Transform) | TransformList(entries: seq<Paths.TransformEntry>)

  /** A `config()` argument; a missing object is the empty object, since
      `extend` over `undefined` copies nothing. */
  datatype Additions = Additions(
    path: Maps.Object<Paths.Override>,
    checker: Maps.Object<Checkers.Checker>,
    transforms: TransformArg)

  /** The `config` field of the `init` options: each field present replaces
      the old one. */
  datatype Replacement = Replacement(
    path: Option<Maps.Object<Paths.Override>>,
    checker: Option<Maps.Object<Checkers.Checker>>,
    transforms: Option<seq<Paths.TransformEntry>>)

  const NoReplacement := Replacement(None, None, None)

  function Appended(t: TransformArg): seq<Paths.TransformEntry> {
    match t
    case NoTransforms => [None]
    case OneTransform(f) => [Some(f)]
    case TransformList(es) => es
  }

  /** `config(cfg)`: no entry already configured changes, new keys are
      added after the existing ones, and the transform list grows at its
      end. */
  function Merge(c: Config, a: Additions): (r: Config)
    ensures r.path.entries.Keys == c.path.entries.Keys + a.path.entries.Keys
    ensures forall k :: k in c.path.entries ==> r.path.entries[k] == c.path.entries[k]
    ensures forall k :: k in a.path.entries && k !in c.path.entries ==> r.path.entries[k] == a.path.entries[k]
    ensures r.checker.entries.Keys == c.checker.entries.Keys + a.checker.entries.Keys
    ensures forall k :: k in c.checker.entries ==> r.checker.entries[k] == c.checker.entries[k]
    ensures forall k :: k in a.checker.entries && k !in c.checker.entries ==> r.checker.entries[k] == a.checker.entries[k]
    ensures |c.checker.order| <= |r.checker.order| && r.checker.order[..|c.checker.order|] == c.checker.order
    ensures r.transforms == c.transforms + Appended(a.transforms)
  {
    Maps.ExtendObjectMeaning(c.path, a.path, false);
    Maps.ExtendObjectMeaning(c.checker, a.checker, false);
    Config(
      Maps.ExtendObject(c.path, a.path, false),
      Maps.ExtendObject(c.checker, a.checker, false),
      c.transforms + Appended(a.transforms))
  }

  /** `extend(config, options.config || {})`: each field given replaces the
      old one as a whole, and a field not given keeps it. */
  function Replace(c: Config, r: Replacement): (n: Config)
    ensures n.path == if r.path.Some? then r.path.value else c.path
    ensures n.checker == if r.checker.Some? then r.checker.value else c.checker
    ensures n.transforms == if r.transforms.Some? then r.transforms.value else c.transforms
  {
    Config(
      if r.path.Some? then r.path.value else c.path,
      if r.checker.Some? then r.checker.value else c.checker,
      if r.transforms.Some? then r.transforms.value else c.transforms)
  }

  function Resolve(c: Config, root: string, name: string): Option<string> {
    Paths.PathFromModuleName(c.path.entries, c.transforms, root, name)
  }

  /** A name with an explicit path entry resolves the same after any later
      `config()` call. */
  lemma {:induction false} MergeKeepsExplicitPaths(c: Config, a: Additions, root: string, name: string)
    requires name in c.path.entries
    ensures Resolve(Merge(c, a), root, name) == Resolve(c, root, name)
  {
    assert Merge(c, a).path.entries[name] == c.path.entries[name];
  }

  /** When the configured transforms run to completion on a name, the
      transforms a `config()` call adds are applied to their result. */
  lemma {:induction false} MergeChainsTransforms(c: Config, es: seq<Paths.TransformEntry>, name: string)
    requires Paths.Completes(name, name, c.transforms)
    ensures Paths.TransformPath(name, Merge(c, Additions(Maps.Obj([], map[]), Maps.Obj([], map[]), TransformList(es))).transforms)
         == Paths.TransformFrom(Paths.TransformPath(name, c.transforms), name, es)
  {
    Paths.Compose(name, name, c.transforms, es);
  }

  /** A `config()` call without `pathTransform` appends a falsy entry, and
      from then on no transform added by a later call is ever applied. */
  lemma {:induction false} MissingTransformsFreezePipeline(c: Config, a1: Additions, a2: Additions, name: string)
    requires a1.transforms == NoTransforms
    ensures Paths.TransformPath(name, Merge(Merge(c, a1), a2).transforms) == Paths.TransformPath(name, c.transforms)
  {
    var later := Appended(a2.transforms);
    assert Merge(Merge(c, a1), a2).transforms == c.transforms + [None] + later;
    Paths.StopsAtFalsy(name, name, c.transforms, later);
  }
}

=== FILE: engine.dfy ===
/** The loading engine of angularjs-loader.js as a state machine over one
    value: the lock table, the configuration, the `init` arguments, and the
    load calls, script fetches and checker polls still alive. Every public
    call and every asynchronous completion (a script loads, fails or times
    out; a checker interval ticks) is an event applied to that value. A
    thrown error is the `err` of the outcome, together with whatever the
    state had become when it was thrown. */
module Engine {
  import opened Wrappers
  import Locks
  import Paths
  import Checkers
  import Futures
  import Configuration

  /** The values promises are settled with. */
  datatype Val =
    | Undefined
    | True
    | LoadEvent(fetch: nat)      // the `load` event of a script
    | ErrorEvent(fetch: nat)     // the `error` event of a script
    | TimeoutError(fetch: nat)   // "Script did not load in time."

  /** One element of the list given to `angular.loader`: a name, or an
      object whose `src` (sequential) or `name` (parallel) field is read. */
  datatype Request = Name(name: string) | Descriptor(fields: map<string, string>)

  /** The first argument of `angular.loader`: one string or a list. */
  datatype PathArg = Single(name: string) | List(requests: seq<Request>)

  /** The options of a load call; a zero timeout is an absent one. */
  datatype LoadOptions = LoadOptions(sequence: bool, checker: Checkers.CallChecker, timeout: nat, modules: seq<string>)

  const Defaults := LoadOptions(false, Checkers.Absent, 0, [])

  /** The `init` options; an empty `app` or `root` and a zero timeout are
      absent ones. */
  datatype InitOptions = InitOptions(app: string, root: string, timeout: nat, config: Configuration.Replacement, boot: bool)

  /** A call of the wrapped `angular.module`: one argument (a lookup) or a
      definition with its `requires` argument when that is an array. */
  datatype ModuleCall = Lookup(name: string) | Define(name: string, deps: Option<seq<string>>)

  datatype Error =
    | LockFailed(cause: Locks.LockError)
    | ResolvedTwice          // "Deferred resolved twice."
    | NotInitialized         // "Need to initialize before loading."
    | MissingApp             // "The \"app\" argument is mandatory."
    | AngularNotLoaded       // "Angular was not loaded."
    | MissingField(field: string)
    | LoadFailed(reason: Val)
    | TimedOut              // "Timed out loading ..."

  /** Who listens to a fetch: nobody (a dependency fetched by the module
      wrapper), a parallel load call, or a sequential one; `forwards` counts
      the `then(resolve, reject)` subscriptions a sequential call adds when
      its list runs out at this link. */
  datatype Link = ModuleDependency | ParallelLink(call: nat, key: string) | SequenceLink(call: nat, key: string, forwards: nat)

  datatype Fetch = Fetch(path: string, link: Link, status: Futures.Settlement<Val>)

  /** A checker interval: the checker, the resource key, the lock it
      releases, when it started and the call's timeout. */
  datatype Poll = Poll(checker: Checkers.Normal, key: string, lock: string, start: int, timeout: nat, active: bool)

  /** One invocation of `angular.loader`: its mode, the requests a
      sequential call has not reached yet, its checker map, its timeout,
      the parallel counter and the returned promise. */
  datatype Call = Call(
    sequence: bool,
    remaining: seq<Request>,
    checkers: map<string, Checkers.Normal>,
    timeout: nat,
    counter: int,
    result: Futures.Settlement<Val>)

  datatype State = State(
    table: Locks.Table,
    config: Configuration.Config,
    initialized: bool,
    app: string,
    root: string,
    timeout: nat,
    calls: seq<Call>,
    fetches: seq<Fetch>,
    polls: seq<Poll>,
    bootstraps: nat)   // bootstrap tasks scheduled so far

  datatype Outcome = Outcome(state: State, err: Option<Error>)

  const Initial := State(Locks.Empty, Configuration.Initial, false, "", "", 0, [], [], [], 0)

  predicate LinkValid(l: Link, calls: nat) {
    match l
    case ModuleDependency => true
    case ParallelLink(c, _) => c < calls
    case SequenceLink(c, _, _) => c < calls
  }

  /** The invariant every event keeps: the lock count is the number of
      in-flight locks, one bootstrap was scheduled exactly when the flag is
      set, and every fetch belongs to an existing call. */
  ghost predicate Valid(s: State) {
    && Locks.Consistent(s.table)
    && s.bootstraps == Locks.Bootstraps(s.table)
    && forall f :: 0 <= f < |s.fetches| ==> LinkValid(s.fetches[f].link, |s.calls|)
  }

  // ---------------------------------------------------------------- steps

  function ErrorOf(e: Option<Locks.LockError>): Option<Error> {
    if e.Some? then Some(LockFailed(e.value)) else None
  }

  function Lock(s: State, key: string): Outcome {
    var r := Locks.Lock(s.table, key);
    Outcome(s.(table := r.table), ErrorOf(r.err))
  }

  function Unlock(s: State, key: string): Outcome {
    var r := Locks.Unlock(s.table, key);
    Outcome(s.(table := r.table, bootstraps := s.bootstraps + if r.bootstrap then 1 else 0), ErrorOf(r.err))
  }

  function Resolve(s: State, name: string): Option<string> {
    Configuration.Resolve(s.config, s.root, name)
  }

  /** The negation of the source's `!p || locked(p)`. */
  predicate Fetchable(s: State, p: Option<string>) {
    p.Some? && p.value != "" && p.value !in s.table.locks
  }

  function Issue(s: State, path: string, link: Link): State {
    s.(fetches := s.fetches + [Fetch(path, link, Futures.Pending)])
  }

  function WithCall(s: State, c: nat, call: Call): State
    requires c < |s.calls|
  {
    s.(calls := s.calls[c := call])
  }

  function Settle(s: State, f: nat, status: Futures.Settlement<Val>): State
    requires f < |s.fetches|
  {
    s.(fetches := s.fetches[f := s.fetches[f].(status := status)])
  }

  function Requests(arg: PathArg): seq<Request> {
    match arg
    case Single(n) => [Name(n)]
    case List(rs) => rs
  }

  /** The key a request has in the checker map: an object converts to
      "[object Object]". */
  function Key(r: Request): string {
    match r
    case Name(n) => n
    case Descriptor(_) => "[object Object]"
  }

  function Keys(rs: seq<Request>): seq<string> {
    seq(|rs|, i requires 0 <= i < |rs| => Key(rs[i]))
  }

  function Field(r: Request, field: string): Option<string> {
    match r
    case Name(n) => Some(n)
    case Descriptor(fs) => if field in fs then Some(fs[field]) else None
  }

  /** The resolved path of a request in the mode that reads `field`. */
  function RequestPath(s: State, r: Request, field: string): Option<string> {
    if Field(r, field).Some? then Resolve(s, Field(r, field).value) else None
  }

  // ------------------------------------------------------------ loaderFn

  /** Pre-locking of `options.modules` by name (angularjs-loader.js:303-310). */
  function PreLock(s: State, modules: seq<string>): (r: State)
    ensures r.calls == s.calls && r.fetches == s.fetches
    decreases |modules|
  {
    if modules == [] then s
    else PreLock(if modules[0] in s.table.locks then s else Lock(s, modules[0]).state, modules[1..])
  }

  /** One turn of the parallel loop (angularjs-loader.js:375-392) for a
      request named `n`: skip it when its path is null, empty or locked,
      otherwise count it on the call, lock its path and fetch it. */
  function Visit(s: State, c: nat, req: Request, n: string): (r: State)
    requires c < |s.calls|
    ensures |r.calls| == |s.calls|
  {
    var p := Resolve(s, n);
    if !Fetchable(s, p) then s
    else
      var call := s.calls[c];
      var s1 := Lock(WithCall(s, c, call.(counter := call.counter + 1)), p.value).state;
      Issue(s1, p.value, ParallelLink(c, Key(req)))
  }

  /** The parallel loop (angularjs-loader.js:373-393); a request without a
      `name` stops it with an error. */
  function Parallel(s: State, c: nat, reqs: seq<Request>): (o: Outcome)
    requires c < |s.calls|
    ensures |o.state.calls| == |s.calls|
    decreases |reqs|
  {
    if reqs == [] then Outcome(s, None)
    else
      match Field(reqs[0], "name")
      case None => Outcome(s, Some(MissingField("name")))
      case Some(n) => Parallel(Visit(s, c, reqs[0], n), c, reqs[1..])
  }

  /** A parallel call that issued nothing resolves with `true`. */
  function ParallelDone(s: State, c: nat): State
    requires c < |s.calls|
  {
    if s.calls[c].counter == 0 then WithCall(s, c, s.calls[c].(result := Futures.Resolved(True))) else s
  }

  function AddForward(s: State, f: nat): State
    requires f < |s.fetches|
  {
    var fe := s.fetches[f];
    if fe.link.SequenceLink? then s.(fetches := s.fetches[f := fe.(link := fe.link.(forwards := fe.link.forwards + 1))])
    else s
  }

  /** `recursiveLoader(d)` (angularjs-loader.js:338-367): take requests off
      the front of the list, skipping those whose path is null or locked,
      and lock and fetch the first other one. When the list is exhausted
      the call resolves at once if nothing was fetched yet (`d` absent), and
      otherwise subscribes to fetch `d`. */
  function Advance(s: State, c: nat, d: Option<nat>): (o: Outcome)
    requires c < |s.calls|
    requires d.Some? ==> d.value < |s.fetches|
    ensures |o.state.calls| == |s.calls| && |o.state.fetches| >= |s.fetches|
    decreases |s.calls[c].remaining|
  {
    var call := s.calls[c];
    if call.remaining != [] then
      var req := call.remaining[0];
      var s1 := WithCall(s, c, call.(remaining := call.remaining[1..]));
      match Field(req, "src")
      case None => Outcome(s1, Some(MissingField("src")))
      case Some(n) =>
        var p := Resolve(s1, n);
        if !Fetchable(s1, p) then Advance(s1, c, d)
        else Outcome(Issue(Lock(s1, p.value).state, p.value, SequenceLink(c, Key(req), 0)), None)
    else if d.None? then
      match Futures.OnResolve(call.result, Undefined)
      case None => Outcome(s, Some(ResolvedTwice))
      case Some(r) => Outcome(WithCall(s, c, call.(result := r)), None)
    else Outcome(AddForward(s, d.value), None)
  }

  /** `loaderFn(path, options)` up to the return of its promise. */
  function Load(s: State, arg: PathArg, opts: LoadOptions): (o: Outcome)
    ensures s.initialized ==> |o.state.calls| == |s.calls| + 1
  {
    if !s.initialized then Outcome(s, Some(NotInitialized))
    else
      var reqs := Requests(arg);
      if reqs == [] then
        Outcome(s.(calls := s.calls + [Call(opts.sequence, [], map[], 0, 0, Futures.Resolved(Undefined))]), None)
      else
        var checkers := Checkers.Build(opts.checker, Keys(reqs), s.config.checker);
        var timeout := if opts.timeout > 0 then opts.timeout else s.timeout;
        var s1 := PreLock(s, opts.modules);
        var c := |s1.calls|;
        var s2 := s1.(calls := s1.calls + [Call(opts.sequence, reqs, checkers, timeout, 0, Futures.Pending)]);
        if opts.sequence then Advance(s2, c, None)
        else
          var o := Parallel(s2, c, reqs);
          if o.err.Some? then o else Outcome(ParallelDone(o.state, c), None)
  }

  /** `unlockOnChecker(name, lock)` (angularjs-loader.js:312-336): unlock at
      once when the call has no checker for the key or it already holds,
      otherwise start polling. */
  function UnlockOnChecker(s: State, c: nat, key: string, lock: string, env: Checkers.Env, now: int): (o: Outcome)
    requires c < |s.calls|
    ensures o.state.calls == s.calls && o.state.fetches == s.fetches
  {
    var cs := s.calls[c].checkers;
    if key !in cs || Checkers.Holds(cs[key], key, env) then Unlock(s, lock)
    else Outcome(s.(polls := s.polls + [Poll(cs[key], key, lock, now, s.calls[c].timeout, true)]), None)
  }

  /** After the success subscriber of a sequential link: the subscriptions
      it added on the way fire in the same resolve loop; the first resolves
      the call, a second one finds it settled and throws. */
  function Forward(s: State, c: nat, f: nat, v: Val): Outcome
    requires c < |s.calls| && f < |s.fetches|
  {
    var fe := s.fetches[f];
    var k := if fe.link.SequenceLink? then fe.link.forwards else 0;
    if k == 0 then Outcome(Settle(s, f, Futures.Resolved(v)), None)
    else
      match Futures.OnResolve(s.calls[c].result, v)
      case None => Outcome(s, Some(ResolvedTwice))
      case Some(r) =>
        var s1 := WithCall(s, c, s.calls[c].(result := r));
        if k > 1 then Outcome(s1, Some(ResolvedTwice)) else Outcome(Settle(s1, f, Futures.Resolved(v)), None)
  }

  /** The `load` event of fetch `f`: its deferred resolves, running the
      subscriber of its link before it stops being pending; a throw inside
      the subscriber leaves the fetch pending. */
  function ScriptLoaded(s: State, f: nat, env: Checkers.Env, now: int): Outcome
    requires Valid(s) && f < |s.fetches|
  {
    var fe := s.fetches[f];
    var v := LoadEvent(f);
    if !fe.status.Pending? then Outcome(s, Some(ResolvedTwice))
    else
      match fe.link
      case ModuleDependency => Outcome(Settle(s, f, Futures.Resolved(v)), None)
      case ParallelLink(c, key) =>
        var call := s.calls[c];
        var s1 := WithCall(s, c, call.(counter := call.counter - 1));
        // `bind(successFn, 0, [name, p])` drops the event: `val` is undefined.
        if call.counter - 1 == 0 && Futures.OnResolve(call.result, Undefined).None? then Outcome(s1, Some(ResolvedTwice))
        else
          var s2 := if call.counter - 1 == 0 then WithCall(s1, c, s1.calls[c].(result := Futures.Resolved(Undefined))) else s1;
          var o := UnlockOnChecker(s2, c, key, fe.path, env, now);
          if o.err.Some? then o else Outcome(Settle(o.state, f, Futures.Resolved(v)), None)
      case SequenceLink(c, key, _) =>
        var o1 := Advance(s, c, Some(f));
        if o1.err.Some? then o1
        else
          var o2 := UnlockOnChecker(o1.state, c, key, fe.path, env, now);
          if o2.err.Some? then o2 else Forward(o2.state, c, f, v)
  }

  /** Rejection of fetch `f` (no pending guard): a parallel call is
      rejected, a sequential link throws from its error subscriber before
      the fetch settles. */
  function ScriptFailed(s: State, f: nat, reason: Val): Outcome
    requires Valid(s) && f < |s.fetches|
  {
    var fe := s.fetches[f];
    match fe.link
    case ModuleDependency => Outcome(Settle(s, f, Futures.OnReject(fe.status, reason)), None)
    case ParallelLink(c, _) =>
      var s1 := WithCall(s, c, s.calls[c].(result := Futures.OnReject(s.calls[c].result, reason)));
      Outcome(Settle(s1, f, Futures.OnReject(fe.status, reason)), None)
    case SequenceLink(_, _, _) => Outcome(s, Some(LoadFailed(reason)))
  }

  /** The timer of `insertScript`: rejects the fetch if still pending. */
  function ScriptTimer(s: State, f: nat): Outcome
    requires Valid(s) && f < |s.fetches|
  {
    if s.fetches[f].status.Pending? then ScriptFailed(s, f, TimeoutError(f)) else Outcome(s, None)
  }

  /** One tick of checker interval `i`: unlock when the checker holds,
      throw once the timeout has elapsed, stop either way. */
  function PollTick(s: State, i: nat, env: Checkers.Env, now: int): Outcome
    requires i < |s.polls|
  {
    var pl := s.polls[i];
    if !pl.active then Outcome(s, None)
    else
      var s1 := s.(polls := s.polls[i := pl.(active := false)]);
      if Checkers.Holds(pl.checker, pl.key, env) then Unlock(s1, pl.lock)
      else if now - pl.start >= pl.timeout then Outcome(s1, Some(TimedOut))
      else Outcome(s, None)
  }

  // -------------------------------------------------- newAngularModuleFn

  /** The dependency loop of angularjs-loader.js:423-433: it resolves the
      path but locks and checks the dependency NAME, and nobody listens to
      the fetch. */
  function Dependencies(s: State, ds: seq<string>): State
    decreases |ds|
  {
    if ds == [] then s
    else
      var p := Resolve(s, ds[0]);
      var s1 := if p.None? || p.value == "" || ds[0] in s.table.locks then s
                else Issue(Lock(s, ds[0]).state, p.value, ModuleDependency);
      Dependencies(s1, ds[1..])
  }

  /** The lock-table effects of the wrapped `angular.module`; the original
      function is not modelled. The module name is unlocked when it has a
      path. */
  function RegisterModule(s: State, hostCaptured: bool, m: ModuleCall): Outcome {
    if !hostCaptured then Outcome(s, Some(AngularNotLoaded))
    else
      match m
      case Lookup(_) => Outcome(s, None)
      case Define(name, deps) =>
        var s1 := if deps.Some? then Dependencies(s, deps.value) else s;
        var p := Resolve(s1, name);
        if p.Some? && p.value != "" then Unlock(s1, name) else Outcome(s1, None)
  }

  // ------------------------------------------- config, init, lock, unlock

  function Config(s: State, a: Configuration.Additions): Outcome {
    Outcome(s.(config := Configuration.Merge(s.config, a)), None)
  }

  /** `init(options)`: the arguments and the configuration are taken before
      the mandatory `app` is checked; then the app name is locked. */
  function Init(s: State, o: InitOptions): Outcome {
    var s1 := s.(app := o.app, root := o.root, timeout := if o.timeout > 0 then o.timeout else 30000,
                 config := Configuration.Replace(s.config, o.config));
    if o.app == "" then Outcome(s1, Some(MissingApp))
    else
      var l := Lock(s1, o.app);
      if l.err.Some? then l
      else
        var s2 := l.state.(initialized := true);
        if o.boot then Load(s2, Single(o.app), Defaults) else Outcome(s2, None)
  }

  function ExtLock(s: State, name: string): Outcome {
    Lock(s, "ext:" + name)
  }

  function ExtUnlock(s: State, name: string): Outcome {
    Unlock(s, "ext:" + name)
  }

  // --------------------------------------------------------------- events

  datatype Event =
    | Configure(additions: Configuration.Additions)
    | Initialize(options: InitOptions)
    | LoadRequest(arg: PathArg, opts: LoadOptions)
    | ExtLockRequest(name: string)
    | ExtUnlockRequest(name: string)
    | ModuleRequest(hostCaptured: bool, call: ModuleCall)
    | ScriptLoad(fetch: nat, env: Checkers.Env, now: int)
    | ScriptError(fetch: nat)
    | ScriptTimeout(fetch: nat)
    | Tick(poll: nat, env: Checkers.Env, now: int)

  /** Events about fetches and polls that exist. */
  predicate Applicable(s: State, e: Event) {
    match e
    case ScriptLoad(f, _, _) => f < |s.fetches|
    case ScriptError(f) => f < |s.fetches|
    case ScriptTimeout(f) => f < |s.fetches|
    case Tick(i, _, _) => i < |s.polls|
    case _ => true
  }

  function Step(s: State, e: Event): Outcome
    requires Valid(s) && Applicable(s, e)
  {
    match e
    case Configure(a) => Config(s, a)
    case Initialize(o) => Init(s, o)
    case LoadRequest(arg, opts) => Load(s, arg, opts)
    case ExtLockRequest(n) => ExtLock(s, n)
    case ExtUnlockRequest(n) => ExtUnlock(s, n)
    case ModuleRequest(h, m) => RegisterModule(s, h, m)
    case ScriptLoad(f, env, now) => ScriptLoaded(s, f, env, now)
    case ScriptError(f) => ScriptFailed(s, f, ErrorEvent(f))
    case ScriptTimeout(f) => ScriptTimer(s, f)
    case Tick(i, env, now) => PollTick(s, i, env, now)
  }
}

=== FILE: futures.dfy ===
/** The hand-written promise of angularjs-loader.js:71-131: a deferred that
    is pending until it is resolved or rejected, with queued success and
    error subscribers. */
module Futures {
  import opened Wrappers

  /** What a deferred has settled to, as its subscribers see it. */
  datatype Settlement<+T> = Pending | Resolved(value: T) | Rejected(reason: T)

  /** `resolve`: refused (`None`, "Deferred resolved twice.") unless pending. */
  function OnResolve<T>(s: Settlement<T>, v: T): (r: Option<Settlement<T>>)
    ensures r.Some? <==> s.Pending?
    ensures r.Some? ==> r.value.Resolved? && r.value.value == v
  {
    if s.Pending? then Some(Resolved(v)) else None
  }

  /** `reject` has no pending guard: it always succeeds, even after a
      resolution, and the deferred ends up rejected. */
  function OnReject<T>(s: Settlement<T>, v: T): (r: Settlement<T>)
    ensures r.Rejected? && r.reason == v
  {
    Rejected(v)
  }

  /** One invocation of a subscriber with its argument. */
  datatype Invocation<C, T> = Invocation(callback: C, arg: T)

  /** Every subscriber in `cbs`, called in order with `v`. */
  function Invocations<C, T>(cbs: seq<C>, v: T): (r: seq<Invocation<C, T>>)
    ensures |r| == |cbs|
    ensures forall i :: 0 <= i < |cbs| ==> r[i] == Invocation(cbs[i], v)
  {
    seq(|cbs|, i requires 0 <= i < |cbs| => Invocation(cbs[i], v))
  }

  /** The callback `then` runs at once on a settled deferred: only the one
      matching the outcome, and only when it was given. */
  function Immediate<C, T>(s: Settlement<T>, onSuccess: Option<C>, onError: Option<C>): seq<Invocation<C, T>>
  {
    match s
    case Pending => []
    case Resolved(v) => if onSuccess.Some? then [Invocation(onSuccess.value, v)] else []
    case Rejected(e) => if onError.Some? then [Invocation(onError.value, e)] else []
  }

  function Queue<C>(cb: Option<C>): seq<C> {
    if cb.Some? then [cb.value] else []
  }

  /** A deferred with its closure variables as fields. Subscribers are
      opaque handles of type `C`; `invoked` records every call made to one
      of them, in order. The promise object and the deferred are one object
      here. */
  class Deferred<C, T> {
    var pending: bool
    var succeeded: bool
    var value: Option<T>
    var reason: Option<T>
    var success: seq<C>
    var error: seq<C>
    var invoked: seq<Invocation<C, T>>

    ghost predicate Valid()
      reads this
    {
      !pending ==> if succeeded then value.Some? else reason.Some?
    }

    function Status(): Settlement<T>
      reads this
      requires Valid()
    {
      if pending then Pending
      else if succeeded then Resolved(value.value)
      else Rejected(reason.value)
    }

    constructor ()
      ensures Valid() && Status() == Pending
      ensures success == [] && error == [] && invoked == []
    {
      pending := true;
      succeeded := false;
      value := None;
      reason := None;
      success := [];
      error := [];
      invoked := [];
    }

    method IsPending() returns (b: bool)
      requires Valid()
      ensures b <==> Status().Pending?
    {
      b := pending;
    }

    /** `resolve(val)`: fails when already settled; otherwise calls every
        queued success subscriber in registration order and settles. */
    method Resolve(v: T) returns (ok: bool)
      requires Valid()
      modifies this
      ensures Valid()
      ensures ok <==> old(Status()).Pending?
      ensures !ok ==> unchanged(this)
      ensures ok ==> Some(Status()) == OnResolve(old(Status()), v)
      ensures ok ==> invoked == old(invoked) + Invocations(old(success), v)
      ensures success == old(success) && error == old(error)
    {
      if !pending {
        return false;
      }
      value := Some(v);
      var i := 0;
      while i < |success|
        invariant 0 <= i <= |success|
        invariant invoked == old(invoked) + Invocations(success[..i], v)
        invariant value == Some(v) && pending && success == old(success) && error == old(error)
      {
        invoked := invoked + [Invocation(success[i], v)];
        i := i + 1;
        assert success[..i] == success[..i - 1] + [success[i - 1]];
      }
      assert success[..i] == success;
      succeeded := true;
      pending := false;
      ok := true;
    }

    /** `reject(val)`: no pending guard. Calls every queued error subscriber
        in registration order and settles as rejected, whatever the state. */
    method Reject(v: T)
      requires Valid()
      modifies this
      ensures Valid()
      ensures Status() == OnReject(old(Status()), v)
      ensures invoked == old(invoked) + Invocations(old(error), v)
      ensures success == old(success) && error == old(error)
    {
      reason := Some(v);
      var i := 0;
      while i < |error|
        invariant 0 <= i <= |error|
        invariant invoked == old(invoked) + Invocations(error[..i], v)
        invariant reason == Some(v) && success == old(success) && error == old(error)
      {
        invoked := invoked + [Invocation(error[i], v)];
        i := i + 1;
        assert error[..i] == error[..i - 1] + [error[i - 1]];
      }
      assert error[..i] == error;
      pending := false;
      succeeded := false;
    }

    /** `promise.then(fn, errFn)`: on a settled deferred runs the matching
        subscriber at once; on a pending one queues both. Always returns
        the same promise. */
    method Then(onSuccess: Option<C>, onError: Option<C>) returns (p: Deferred<C, T>)
      requires Valid()
      modifies this
      ensures p == this && Valid() && Status() == old(Status())
      ensures old(Status()).Pending? ==>
        success == old(success) + Queue(onSuccess) && error == old(error) + Queue(onError) && invoked == old(invoked)
      ensures !old(Status()).Pending? ==>
        success == old(success) && error == old(error) &&
        invoked == old(invoked) + Immediate(old(Status()), onSuccess, onError)
    {
      if !pending {
        if succeeded {
          if onSuccess.Some? {
            invoked := invoked + [Invocation(onSuccess.value, value.value)];
          }
        } else {
          if onError.Some? {
            invoked := invoked + [Invocation(onError.value, reason.value)];
          }
        }
      } else {
        if onSuccess.Some? {
          success := success + [onSuccess.value];
        }
        if onError.Some? {
          error := error + [onError.value];
        }
      }
      p := this;
    }
  }

  /** Two subscribers queued before resolution fire in registration order;
      one added afterwards is replayed at once; no error subscriber runs. */
  method SubscribersInOrder<C, T>(v: T, first: C, second: C, late: C, onError: C)
    returns (calls: seq<Invocation<C, T>>, status: Settlement<T>)
    ensures calls == [Invocation(first, v), Invocation(second, v), Invocation(late, v)]
    ensures status == Resolved(v)
  {
    var d := new Deferred<C, T>();
    var p := d.Then(Some(first), Some(onError));
    p := p.Then(Some(second), None);
    var ok := d.Resolve(v);
    p := d.Then(Some(late), Some(onError));
    calls := d.invoked;
    status := d.Status();
  }

  /** A second resolve is refused and changes nothing, but a reject after a
      resolve goes through and turns the outcome into a rejection. */
  method RejectAfterResolve<C, T>(v: T, e: T, onError: C)
    returns (secondResolve: bool, status: Settlement<T>, calls: seq<Invocation<C, T>>)
    ensures !secondResolve
    ensures status == Rejected(e)
    ensures calls == [Invocation(onError, e)]
  {
    var d := new Deferred<C, T>();
    var p := d.Then(None, Some(onError));
    var ok := d.Resolve(v);
    secondResolve := d.Resolve(v);
    d.Reject(e);
    status := d.Status();
    calls := d.invoked;
  }
}

=== FILE: invariants.dfy ===
/** Every event of the engine keeps its invariant and never forgets a
    lock; hence the bootstrap is scheduled at most once in any run. */
module Invariants {
  import opened Wrappers
  import Locks
  import Futures
  import opened Engine

  /** Locks are never removed, a done lock stays done, calls are never
      removed. */
  ghost predicate Grows(s: State, t: State) {
    && (forall k :: k in s.table.locks ==> k in t.table.locks && (s.table.locks[k] ==> t.table.locks[k]))
    && |s.calls| <= |t.calls|
  }

  lemma LockStep(s: State, key: string)
    requires Valid(s)
    ensures Valid(Lock(s, key).state) && Grows(s, Lock(s, key).state)
  {
    Locks.LockKeepsConsistent(s.table, key);
  }

  lemma UnlockStep(s: State, key: string)
    requires Valid(s)
    ensures Valid(Unlock(s, key).state) && Grows(s, Unlock(s, key).state)
  {
    Locks.UnlockKeepsConsistent(s.table, key);
    Locks.BootstrapWhenFirstZero(s.table, key);
  }

  lemma {:induction false} PreLockStep(s: State, modules: seq<string>)
    requires Valid(s)
    ensures Valid(PreLock(s, modules)) && Grows(s, PreLock(s, modules))
    decreases |modules|
  {
    if modules != [] {
      var s1 := if modules[0] in s.table.locks then s else Lock(s, modules[0]).state;
      LockStep(s, modules[0]);
      PreLockStep(s1, modules[1..]);
    }
  }

  lemma VisitStep(s: State, c: nat, req: Request, n: string)
    requires Valid(s) && c < |s.calls|
    ensures Valid(Visit(s, c, req, n)) && Grows(s, Visit(s, c, req, n))
  {
    var p := Resolve(s, n);
    if Fetchable(s, p) {
      var call := s.calls[c];
      LockStep(WithCall(s, c, call.(counter := call.counter + 1)), p.value);
    }
  }

  lemma {:induction false} ParallelStep(s: State, c: nat, reqs: seq<Request>)
    requires Valid(s) && c < |s.calls|
    ensures Valid(Parallel(s, c, reqs).state) && Grows(s, Parallel(s, c, reqs).state)
    decreases |reqs|
  {
    if reqs != [] && Field(reqs[0], "name").Some? {
      var n := Field(reqs[0], "name").value;
      VisitStep(s, c, reqs[0], n);
      ParallelStep(Visit(s, c, reqs[0], n), c, reqs[1..]);
    }
  }

  lemma {:induction false} AdvanceStep(s: State, c: nat, d: Option<nat>)
    requires Valid(s) && c < |s.calls|
    requires d.Some? ==> d.value < |s.fetches|
    ensures Valid(Advance(s, c, d).state) && Grows(s, Advance(s, c, d).state)
    decreases |s.calls[c].remaining|
  {
    var call := s.calls[c];
    if call.remaining != [] {
      var req := call.remaining[0];
      var s1 := WithCall(s, c, call.(remaining := call.remaining[1..]));
      if Field(req, "src").Some? {
        var p := Resolve(s1, Field(req, "src").value);
        if !Fetchable(s1, p) {
          AdvanceStep(s1, c, d);
        } else {
          LockStep(s1, p.value);
        }
      }
    }
  }

  lemma UnlockOnCheckerStep(s: State, c: nat, key: string, lock: string, env: Checkers.Env, now: int)
    requires Valid(s) && c < |s.calls|
    ensures Valid(UnlockOnChecker(s, c, key, lock, env, now).state)
    ensures Grows(s, UnlockOnChecker(s, c, key, lock, env, now).state)
  {
    UnlockStep(s, lock);
  }

  lemma LoadStep(s: State, arg: PathArg, opts: LoadOptions)
    requires Valid(s)
    ensures Valid(Load(s, arg, opts).state) && Grows(s, Load(s, arg, opts).state)
  {
    var reqs := Requests(arg);
    if s.initialized && reqs != [] {
      var checkers := Checkers.Build(opts.checker, Keys(reqs), s.config.checker);
      var timeout := if opts.timeout > 0 then opts.timeout else s.timeout;
      PreLockStep(s, opts.modules);
      var s1 := PreLock(s, opts.modules);
      var c := |s1.calls|;
      var s2 := s1.(calls := s1.calls + [Call(opts.sequence, reqs, checkers, timeout, 0, Futures.Pending)]);
      if opts.sequence {
        AdvanceStep(s2, c, None);
      } else {
        ParallelStep(s2, c, reqs);
        ParallelDoneStep(Parallel(s2, c, reqs).state, c);
      }
    }
  }

  lemma ParallelDoneStep(s: State, c: nat)
    requires Valid(s) && c < |s.calls|
    ensures Valid(ParallelDone(s, c)) && Grows(s, ParallelDone(s, c))
  {
  }

  lemma SettleStep(s: State, f: nat, status: Futures.Settlement<Val>)
    requires Valid(s) && f < |s.fetches|
    ensures Valid(Settle(s, f, status)) && Grows(s, Settle(s, f, status))
  {
    var t := Settle(s, f, status);
    forall g | 0 <= g < |t.fetches|
      ensures LinkValid(t.fetches[g].link, |t.calls|)
    {
      assert t.fetches[g].link == s.fetches[g].link;
    }
  }

  lemma ForwardStep(s: State, c: nat, f: nat, v: Val)
    requires Valid(s) && c < |s.calls| && f < |s.fetches|
    ensures Valid(Forward(s, c, f, v).state) && Grows(s, Forward(s, c, f, v).state)
  {
    var fe := s.fetches[f];
    var k := if fe.link.SequenceLink? then fe.link.forwards else 0;
    if k == 0 {
      SettleStep(s, f, Futures.Resolved(v));
    } else if Futures.OnResolve(s.calls[c].result, v).Some? {
      var s1 := WithCall(s, c, s.calls[c].(result := Futures.OnResolve(s.calls[c].result, v).value));
      SettleStep(s1, f, Futures.Resolved(v));
    }
  }

  lemma WithCallStep(s: State, c: nat, call: Call)
    requires Valid(s) && c < |s.calls|
    ensures Valid(WithCall(s, c, call)) && Grows(s, WithCall(s, c, call))
  {
  }

  lemma ParallelLoadedStep(s: State, f: nat, env: Checkers.Env, now: int)
    requires Valid(s) && f < |s.fetches|
    requires s.fetches[f].status.Pending? && s.fetches[f].link.ParallelLink?
    ensures Valid(ScriptLoaded(s, f, env, now).state) && Grows(s, ScriptLoaded(s, f, env, now).state)
  {
    var fe := s.fetches[f];
    var c, key := fe.link.call, fe.link.key;
    var call := s.calls[c];
    var s1 := WithCall(s, c, call.(counter := call.counter - 1));
    WithCallStep(s, c, call.(counter := call.counter - 1));
    if call.counter - 1 == 0 && Futures.OnResolve(call.result, Undefined).None? {
      assert ScriptLoaded(s, f, env, now).state == s1;
    } else {
      var s2 := if call.counter - 1 == 0 then WithCall(s1, c, s1.calls[c].(result := Futures.Resolved(Undefined))) else s1;
      WithCallStep(s1, c, s1.calls[c].(result := Futures.Resolved(Undefined)));
      assert Valid(s2) && Grows(s, s2);
      UnlockOnCheckerStep(s2, c, key, fe.path, env, now);
      var o := UnlockOnChecker(s2, c, key, fe.path, env, now);
      if o.err.None? {
        SettleStep(o.state, f, Futures.Resolved(LoadEvent(f)));
        assert ScriptLoaded(s, f, env, now).state == Settle(o.state, f, Futures.Resolved(LoadEvent(f)));
      } else {
        assert ScriptLoaded(s, f, env, now).state == o.state;
      }
    }
  }

  lemma SequenceLoadedStep(s: State, f: nat, env: Checkers.Env, now: int)
    requires Valid(s) && f < |s.fetches|
    requires s.fetches[f].status.Pending? && s.fetches[f].link.SequenceLink?
    ensures Valid(ScriptLoaded(s, f, env, now).state) && Grows(s, ScriptLoaded(s, f, env, now).state)
  {
    var fe := s.fetches[f];
    var c, key := fe.link.call, fe.link.key;
    AdvanceStep(s, c, Some(f));
    var o1 := Advance(s, c, Some(f));
    if o1.err.None? {
      UnlockOnCheckerStep(o1.state, c, key, fe.path, env, now);
      var o2 := UnlockOnChecker(o1.state, c, key, fe.path, env, now);
      if o2.err.None? {
        ForwardStep(o2.state, c, f, LoadEvent(f));
      }
    }
  }

  lemma ScriptLoadedStep(s: State, f: nat, env: Checkers.Env, now: int)
    requires Valid(s) && f < |s.fetches|
    ensures Valid(ScriptLoaded(s, f, env, now).state) && Grows(s, ScriptLoaded(s, f, env, now).state)
  {
    var fe := s.fetches[f];
    if fe.status.Pending? {
      if fe.link.ModuleDependency? {
        SettleStep(s, f, Futures.Resolved(LoadEvent(f)));
      } else if fe.link.ParallelLink? {
        ParallelLoadedStep(s, f, env, now);
      } else {
        SequenceLoadedStep(s, f, env, now);
      }
    }
  }

  lemma ScriptFailedStep(s: State, f: nat, reason: Val)
    requires Valid(s) && f < |s.fetches|
    ensures Valid(ScriptFailed(s, f, reason).state) && Grows(s, ScriptFailed(s, f, reason).state)
  {
  }

  lemma PollTickStep(s: State, i: nat, env: Checkers.Env, now: int)
    requires Valid(s) && i < |s.polls|
    ensures Valid(PollTick(s, i, env, now).state) && Grows(s, PollTick(s, i, env, now).state)
  {
    var pl := s.polls[i];
    UnlockStep(s.(polls := s.polls[i := pl.(active := false)]), pl.lock);
  }

  lemma {:induction false} DependenciesStep(s: State, ds: seq<string>)
    requires Valid(s)
    ensures Valid(Dependencies(s, ds)) && Grows(s, Dependencies(s, ds))
    decreases |ds|
  {
    if ds != [] {
      var p := Resolve(s, ds[0]);
      LockStep(s, ds[0]);
      var s1 := if p.None? || p.value == "" || ds[0] in s.table.locks then s
                else Issue(Lock(s, ds[0]).state, p.value, ModuleDependency);
      DependenciesStep(s1, ds[1..]);
    }
  }

  lemma RegisterModuleStep(s: State, hostCaptured: bool, m: ModuleCall)
    requires Valid(s)
    ensures Valid(RegisterModule(s, hostCaptured, m).state) && Grows(s, RegisterModule(s, hostCaptured, m).state)
  {
    if hostCaptured && m.Define? {
      var s1 := if m.deps.Some? then Dependencies(s, m.deps.value) else s;
      if m.deps.Some? {
        DependenciesStep(s, m.deps.value);
      }
      UnlockStep(s1, m.name);
    }
  }

  lemma InitStep(s: State, o: InitOptions)
    requires Valid(s)
    ensures Valid(Init(s, o).state) && Grows(s, Init(s, o).state)
  {
    var s1 := s.(app := o.app, root := o.root, timeout := if o.timeout > 0 then o.timeout else 30000,
                 config := Configuration.Replace(s.config, o.config));
    if o.app != "" {
      LockStep(s1, o.app);
      var l := Lock(s1, o.app);
      if l.err.None? && o.boot {
        LoadStep(l.state.(initialized := true), Single(o.app), Defaults);
      }
    }
  }

  /** Every applicable event keeps the invariant and forgets no lock. */
  lemma StepKeepsValid(s: State, e: Event)
    requires Valid(s) && Applicable(s, e)
    ensures Valid(Step(s, e).state) && Grows(s, Step(s, e).state)
  {
    match e
    case Configure(a) =>
    case Initialize(o) => InitStep(s, o);
    case LoadRequest(arg, opts) => LoadStep(s, arg, opts);
    case ExtLockRequest(n) => LockStep(s, "ext:" + n);
    case ExtUnlockRequest(n) => UnlockStep(s, "ext:" + n);
    case ModuleRequest(h, m) => RegisterModuleStep(s, h, m);
    case ScriptLoad(f, env, now) => ScriptLoadedStep(s, f, env, now);
    case ScriptError(f) => ScriptFailedStep(s, f, ErrorEvent(f));
    case ScriptTimeout(f) =>
      if s.fetches[f].status.Pending? {
        ScriptFailedStep(s, f, TimeoutError(f));
      }
    case Tick(i, env, now) => PollTickStep(s, i, env, now);
  }

  /** The state after a sequence of events; an event about a fetch or poll
      that does not exist cannot happen and is skipped. */
  ghost function Run(s: State, es: seq<Event>): (t: State)
    requires Valid(s)
    ensures Valid(t) && Grows(s, t)
    decreases |es|
  {
    if es == [] then s
    else if !Applicable(s, es[0]) then Run(s, es[1..])
    else
      StepKeepsValid(s, es[0]);
      Run(Step(s, es[0]).state, es[1..])
  }

  lemma InitialValid()
    ensures Valid(Initial)
  {
    assert Locks.InFlight(map[]) == {};
  }

  /** From start-up, whatever happens, at most one bootstrap is ever
      scheduled and the lock count is the number of in-flight locks. */
  lemma {:induction false} BootstrapAtMostOnce(es: seq<Event>)
    ensures Valid(Initial)
    ensures Run(Initial, es).bootstraps <= 1
    ensures Locks.Consistent(Run(Initial, es).table)
  {
    InitialValid();
  }
}

=== FILE: loader.dfy ===
/** The loader's module-level state (angularjs-loader.js:35-47, 170-172)
    as one object whose methods update it in place. Every method is proved
    to leave exactly the state the engine's function of the same name
    describes, so everything proved about the engine holds of it. */
module AngularLoader {
  import opened Wrappers
  import Locks
  import Checkers
  import Configuration
  import Futures
  import Maps
  import opened Engine
  import Invariants

  class Loader {
    var locks: map<string, bool>
    var lockCount: int
    var isBootstrapped: bool
    var config: Configuration.Config
    var initialized: bool
    var mainModule: string
    var rootPath: string
    var timeoutArg: nat
    var calls: seq<Call>
    var fetches: seq<Fetch>
    var polls: seq<Poll>
    var bootstraps: nat

    ghost function State(): Engine.State
      reads this
    {
      Engine.State(Locks.Table(locks, lockCount, isBootstrapped), config, initialized, mainModule, rootPath,
                   timeoutArg, calls, fetches, polls, bootstraps)
    }

    ghost predicate Valid()
      reads this
    {
      Engine.Valid(State())
    }

    constructor()
      ensures State() == Engine.Initial && Valid()
    {
      locks := map[];
      lockCount := 0;
      isBootstrapped := false;
      config := Configuration.Initial;
      initialized := false;
      mainModule := "";
      rootPath := "";
      timeoutArg := 0;
      calls := [];
      fetches := [];
      polls := [];
      bootstraps := 0;
      new;
      Invariants.InitialValid();
    }

    /** `locked(name)`. */
    method Locked(name: string) returns (b: bool)
      ensures b <==> Locks.Locked(State().table, name)
    {
      b := name in locks;
    }

    /** `lock(name)`. */
    method Lock(name: string) returns (err: Option<Error>)
      requires Valid()
      modifies this
      ensures Valid()
      ensures State() == Engine.Lock(old(State()), name).state && err == Engine.Lock(old(State()), name).err
    {
      Invariants.LockStep(State(), name);
      if name in locks {
        return Some(LockFailed(Locks.LoadedTwice(name)));
      }
      locks := locks[name := false];
      lockCount := lockCount + 1;
      err := None;
    }

    /** `unlock(name)`: the entry is marked done and the count dropped
      before the bootstrap check, which throws on a second return to
      zero. */
    method Unlock(name: string) returns (err: Option<Error>)
      requires Valid()
      modifies this
      ensures Valid()
      ensures State() == Engine.Unlock(old(State()), name).state && err == Engine.Unlock(old(State()), name).err
    {
      Invariants.UnlockStep(State(), name);
      if name !in locks {
        return Some(LockFailed(Locks.NotLoaded(name)));
      }
      if locks[name] {
        return Some(LockFailed(Locks.UnlockedTwice(name)));
      }
      locks := locks[name := true];
      lockCount := lockCount - 1;
      err := None;
      if lockCount == 0 {
        if isBootstrapped {
          return Some(LockFailed(Locks.AlreadyBootstrapped));
        }
        isBootstrapped := true;
        bootstraps := bootstraps + 1;
      }
    }

    /** `angular.loader.lock(name)`. */
    method ExtLock(name: string) returns (err: Option<Error>)
      requires Valid()
      modifies this
      ensures Valid()
      ensures State() == Engine.ExtLock(old(State()), name).state && err == Engine.ExtLock(old(State()), name).err
    {
      err := Lock("ext:" + name);
    }

    /** `angular.loader.unlock(name)`. */
    method ExtUnlock(name: string) returns (err: Option<Error>)
      requires Valid()
      modifies this
      ensures Valid()
      ensures State() == Engine.ExtUnlock(old(State()), name).state && err == Engine.ExtUnlock(old(State()), name).err
    {
      err := Unlock("ext:" + name);
    }

    /** `angular.loader.config(cfg)`: both maps are extended without
      overriding, and the transform argument is concatenated. */
    method Config(a: Configuration.Additions)
      requires Valid()
      modifies this
      ensures Valid()
      ensures State() == Engine.Config(old(State()), a).state
    {
      var checker := Maps.ExtendByKeys(config.checker, a.checker, false);
      var path := Maps.ExtendByKeys(config.path, a.path, false);
      config := Configuration.Config(path, checker, config.transforms + Configuration.Appended(a.transforms));
    }

    /** `angular.loader.init(options)`. */
    method Init(o: InitOptions) returns (err: Option<Error>)
      requires Valid()
      modifies this
      ensures Valid()
      ensures State() == Engine.Init(old(State()), o).state && err == Engine.Init(old(State()), o).err
    {
      ghost var s0 := State();
      mainModule := o.app;
      rootPath := o.root;
      timeoutArg := if o.timeout > 0 then o.timeout else 30000;
      config := Configuration.Replace(config, o.config);
      ghost var s1 := State();
      assert s1 == s0.(app := o.app, root := o.root, timeout := timeoutArg, config := config);
      if o.app == "" {
        return Some(MissingApp);
      }
      err := Lock(o.app);
      if err.Some? {
        return;
      }
      initialized := true;
      assert State() == Engine.Lock(s1, o.app).state.(initialized := true);
      if o.boot {
        err := Load(Single(o.app), Defaults);
      }
    }

    /** The pre-locking loop over `options.modules`. */
    method PreLock(modules: seq<string>)
      requires Valid()
      modifies this
      ensures Valid()
      ensures State() == Engine.PreLock(old(State()), modules)
    {
      ghost var s0 := State();
      var i := 0;
      while i < |modules|
        invariant 0 <= i <= |modules| && Valid()
        invariant Engine.PreLock(State(), modules[i..]) == Engine.PreLock(s0, modules)
      {
        assert modules[i..][1..] == modules[i + 1..];
        if modules[i] !in locks {
          var _ := Lock(modules[i]);
        }
        i := i + 1;
      }
    }

    /** One turn of the parallel loop for a request named `n`: skip a
      null, empty or locked path, otherwise count, lock and fetch it. */
    method Visit(c: nat, req: Request, n: string)
      requires Valid() && c < |calls|
      modifies this
      ensures Valid()
      ensures State() == Engine.Visit(old(State()), c, req, n)
    {
      var p := Configuration.Resolve(config, rootPath, n);
      if p.Some? && p.value != "" && p.value !in locks {
        ghost var before := State();
        Invariants.VisitStep(before, c, req, n);
        calls := calls[c := calls[c].(counter := calls[c].counter + 1)];
        var _ := Lock(p.value);
        fetches := fetches + [Fetch(p.value, ParallelLink(c, Key(req)), Futures.Pending)];
      }
    }

    /** The parallel `while (path.length > 0)` loop of `loaderFn`. */
    method Parallel(c: nat, reqs: seq<Request>) returns (err: Option<Error>)
      requires Valid() && c < |calls|
      modifies this
      ensures Valid()
      ensures State() == Engine.Parallel(old(State()), c, reqs).state && err == Engine.Parallel(old(State()), c, reqs).err
    {
      ghost var s0 := State();
      var i := 0;
      while i < |reqs|
        invariant 0 <= i <= |reqs| && c < |calls| && Valid()
        invariant Engine.Parallel(State(), c, reqs[i..]) == Engine.Parallel(s0, c, reqs)
      {
        assert reqs[i..][1..] == reqs[i + 1..];
        var name := Field(reqs[i], "name");
        if name.None? {
          return Some(MissingField("name"));
        }
        Visit(c, reqs[i], name.value);
        i := i + 1;
      }
      err := None;
    }

    /** `recursiveLoader(d)`: its self-call on a skipped request is the
      loop. */
    method Advance(c: nat, d: Option<nat>) returns (err: Option<Error>)
      requires Valid() && c < |calls|
      requires d.Some? ==> d.value < |fetches|
      modifies this
      ensures Valid()
      ensures State() == Engine.Advance(old(State()), c, d).state && err == Engine.Advance(old(State()), c, d).err
    {
      ghost var s0 := State();
      Invariants.AdvanceStep(s0, c, d);
      while calls[c].remaining != []
        invariant c < |calls| && (d.Some? ==> d.value < |fetches|) && Valid()
        invariant Engine.Advance(State(), c, d) == Engine.Advance(s0, c, d)
        decreases |calls[c].remaining|
      {
        var req := calls[c].remaining[0];
        calls := calls[c := calls[c].(remaining := calls[c].remaining[1..])];
        var name := Field(req, "src");
        if name.None? {
          return Some(MissingField("src"));
        }
        var p := Configuration.Resolve(config, rootPath, name.value);
        if p.Some? && p.value != "" && p.value !in locks {
          var _ := Lock(p.value);
          fetches := fetches + [Fetch(p.value, SequenceLink(c, Key(req), 0), Futures.Pending)];
          return None;
        }
      }
      err := Exhausted(c, d);
    }

    /** `recursiveLoader(d)` with the list used up: resolve the call when
      nothing was fetched, otherwise subscribe to the last fetch. */
    method Exhausted(c: nat, d: Option<nat>) returns (err: Option<Error>)
      requires Valid() && c < |calls| && calls[c].remaining == []
      requires d.Some? ==> d.value < |fetches|
      modifies this
      ensures Valid()
      ensures State() == Engine.Advance(old(State()), c, d).state && err == Engine.Advance(old(State()), c, d).err
    {
      Invariants.AdvanceStep(State(), c, d);
      if d.None? {
        if !calls[c].result.Pending? {
          return Some(ResolvedTwice);
        }
        calls := calls[c := calls[c].(result := Futures.Resolved(Undefined))];
      } else {
        var fe := fetches[d.value];
        if fe.link.SequenceLink? {
          fetches := fetches[d.value := fe.(link := fe.link.(forwards := fe.link.forwards + 1))];
        }
      }
      err := None;
    }

    /** The checker map of a call: the call's own option, overridden by
      the configured checkers, then normalised. */
    method BuildCheckers(opt: Checkers.CallChecker, keys: seq<string>) returns (checkers: map<string, Checkers.Normal>)
      ensures checkers == Checkers.Build(opt, keys, config.checker)
    {
      var site := Checkers.CallSite(opt, keys);
      var merged := Maps.ExtendByKeys(site, config.checker, true);
      checkers := Checkers.NormalizeAll(merged);
    }

    /** `loaderFn(path, options)` up to the return of its promise; the
      new call is the last of `calls`. */
    method Load(arg: PathArg, opts: LoadOptions) returns (err: Option<Error>)
      requires Valid()
      modifies this
      ensures Valid()
      ensures State() == Engine.Load(old(State()), arg, opts).state && err == Engine.Load(old(State()), arg, opts).err
    {
      ghost var s0 := State();
      Invariants.LoadStep(s0, arg, opts);
      if !initialized {
        return Some(NotInitialized);
      }
      var reqs := Requests(arg);
      if reqs == [] {
        calls := calls + [Call(opts.sequence, [], map[], 0, 0, Futures.Resolved(Undefined))];
        return None;
      }
      var checkers := BuildCheckers(opts.checker, Keys(reqs));
      var timeout := if opts.timeout > 0 then opts.timeout else timeoutArg;
      PreLock(opts.modules);
      var c := |calls|;
      calls := calls + [Call(opts.sequence, reqs, checkers, timeout, 0, Futures.Pending)];
      ghost var s2 := State();
      assert s2 == Engine.PreLock(s0, opts.modules).(calls := calls);
      if opts.sequence {
        err := Advance(c, None);
      } else {
        err := Parallel(c, reqs);
        if err.None? && calls[c].counter == 0 {
          calls := calls[c := calls[c].(result := Futures.Resolved(True))];
        }
        assert err.None? ==> State() == ParallelDone(Engine.Parallel(s2, c, reqs).state, c);
      }
    }

    /** `unlockOnChecker(name, lock)`. */
    method UnlockOnChecker(c: nat, key: string, lock: string, env: Checkers.Env, now: int) returns (err: Option<Error>)
      requires Valid() && c < |calls|
      modifies this
      ensures Valid()
      ensures State() == Engine.UnlockOnChecker(old(State()), c, key, lock, env, now).state
      ensures err == Engine.UnlockOnChecker(old(State()), c, key, lock, env, now).err
    {
      var cs := calls[c].checkers;
      var ready := true;
      if key in cs {
        ready := Checkers.Check(cs[key], key, env);
      }
      if ready {
        err := Unlock(lock);
      } else {
        polls := polls + [Poll(cs[key], key, lock, now, calls[c].timeout, true)];
        err := None;
      }
    }

    /** The subscriptions a sequential fetch gained while it was resolving. */
    method Forward(c: nat, f: nat, v: Val) returns (err: Option<Error>)
      requires Valid() && c < |calls| && f < |fetches|
      modifies this
      ensures Valid()
      ensures State() == Engine.Forward(old(State()), c, f, v).state && err == Engine.Forward(old(State()), c, f, v).err
    {
      var fe := fetches[f];
      var k := if fe.link.SequenceLink? then fe.link.forwards else 0;
      if k > 0 {
        if !calls[c].result.Pending? {
          return Some(ResolvedTwice);
        }
        calls := calls[c := calls[c].(result := Futures.Resolved(v))];
        if k > 1 {
          return Some(ResolvedTwice);
        }
      }
      fetches := fetches[f := fe.(status := Futures.Resolved(v))];
      err := None;
    }

    /** The `load` event of fetch `f`. */
    method ScriptLoaded(f: nat, env: Checkers.Env, now: int) returns (err: Option<Error>)
      requires Valid() && f < |fetches|
      modifies this
      ensures Valid()
      ensures State() == Engine.ScriptLoaded(old(State()), f, env, now).state
      ensures err == Engine.ScriptLoaded(old(State()), f, env, now).err
    {
      ghost var s0 := State();
      Invariants.ScriptLoadedStep(s0, f, env, now);
      var fe := fetches[f];
      var v := LoadEvent(f);
      if !fe.status.Pending? {
        return Some(ResolvedTwice);
      }
      match fe.link
      case ModuleDependency =>
        fetches := fetches[f := fe.(status := Futures.Resolved(v))];
        err := None;
      case ParallelLink(c, key) =>
        calls := calls[c := calls[c].(counter := calls[c].counter - 1)];
        if calls[c].counter == 0 {
          if !calls[c].result.Pending? {
            return Some(ResolvedTwice);
          }
          // The bound subscriber drops the event it is called with.
          calls := calls[c := calls[c].(result := Futures.Resolved(Undefined))];
        }
        err := UnlockOnChecker(c, key, fe.path, env, now);
        if err.None? {
          fetches := fetches[f := fe.(status := Futures.Resolved(v))];
        }
      case SequenceLink(c, key, _) =>
        err := Advance(c, Some(f));
        if err.None? {
          err := UnlockOnChecker(c, key, fe.path, env, now);
          if err.None? {
            err := Forward(c, f, v);
          }
        }
    }

    /** The `error` event of fetch `f`, or its timer's rejection. */
    method ScriptFailed(f: nat, reason: Val) returns (err: Option<Error>)
      requires Valid() && f < |fetches|
      modifies this
      ensures Valid()
      ensures State() == Engine.ScriptFailed(old(State()), f, reason).state
      ensures err == Engine.ScriptFailed(old(State()), f, reason).err
    {
      Invariants.ScriptFailedStep(State(), f, reason);
      var fe := fetches[f];
      match fe.link
      case ModuleDependency =>
        fetches := fetches[f := fe.(status := Futures.OnReject(fe.status, reason))];
        err := None;
      case ParallelLink(c, _) =>
        calls := calls[c := calls[c].(result := Futures.OnReject(calls[c].result, reason))];
        fetches := fetches[f := fe.(status := Futures.OnReject(fe.status, reason))];
        err := None;
      case SequenceLink(_, _, _) =>
        err := Some(LoadFailed(reason));
    }

    /** The timer of `insertScript` for fetch `f`. */
    method ScriptTimer(f: nat) returns (err: Option<Error>)
      requires Valid() && f < |fetches|
      modifies this
      ensures Valid()
      ensures State() == Engine.ScriptTimer(old(State()), f).state && err == Engine.ScriptTimer(old(State()), f).err
    {
      err := None;
      if fetches[f].status.Pending? {
        err := ScriptFailed(f, TimeoutError(f));
      }
    }

    /** One tick of checker interval `i`. */
    method PollTick(i: nat, env: Checkers.Env, now: int) returns (err: Option<Error>)
      requires Valid() && i < |polls|
      modifies this
      ensures Valid()
      ensures State() == Engine.PollTick(old(State()), i, env, now).state && err == Engine.PollTick(old(State()), i, env, now).err
    {
      Invariants.PollTickStep(State(), i, env, now);
      var pl := polls[i];
      if !pl.active {
        return None;
      }
      var ready := Checkers.Check(pl.checker, pl.key, env);
      if ready {
        polls := polls[i := pl.(active := false)];
        err := Unlock(pl.lock);
      } else if now - pl.start >= pl.timeout {
        polls := polls[i := pl.(active := false)];
        err := Some(TimedOut);
      } else {
        err := None;
      }
    }

    /** The dependency loop of the wrapped `angular.module`. */
    method Dependencies(ds: seq<string>)
      requires Valid()
      modifies this
      ensures Valid()
      ensures State() == Engine.Dependencies(old(State()), ds)
    {
      ghost var s0 := State();
      var i := 0;
      while i < |ds|
        invariant 0 <= i <= |ds| && Valid()
        invariant Engine.Dependencies(State(), ds[i..]) == Engine.Dependencies(s0, ds)
      {
        assert ds[i..][1..] == ds[i + 1..];
        var p := Configuration.Resolve(config, rootPath, ds[i]);
        if p.Some? && p.value != "" && ds[i] !in locks {
          var _ := Lock(ds[i]);
          fetches := fetches + [Fetch(p.value, ModuleDependency, Futures.Pending)];
        }
        i := i + 1;
      }
    }

    /** The lock-table effects of the wrapped `angular.module`. */
    method RegisterModule(hostCaptured: bool, m: ModuleCall) returns (err: Option<Error>)
      requires Valid()
      modifies this
      ensures Valid()
      ensures State() == Engine.RegisterModule(old(State()), hostCaptured, m).state
      ensures err == Engine.RegisterModule(old(State()), hostCaptured, m).err
    {
      if !hostCaptured {
        return Some(AngularNotLoaded);
      }
      match m
      case Lookup(_) =>
        err := None;
      case Define(name, deps) =>
        if deps.Some? {
          Dependencies(deps.value);
        }
        var p := Configuration.Resolve(config, rootPath, name);
        if p.Some? && p.value != "" {
          err := Unlock(name);
        } else {
          err := None;
        }
    }

    /** One event: a public call or an asynchronous completion. */
    method Handle(e: Event) returns (err: Option<Error>)
      requires Valid() && Applicable(State(), e)
      modifies this
      ensures Valid()
      ensures State() == Step(old(State()), e).state && err == Step(old(State()), e).err
    {
      match e
      case Configure(a) => Config(a); err := None;
      case Initialize(o) => err := Init(o);
      case LoadRequest(arg, opts) => err := Load(arg, opts);
      case ExtLockRequest(n) => err := ExtLock(n);
      case ExtUnlockRequest(n) => err := ExtUnlock(n);
      case ModuleRequest(h, m) => err := RegisterModule(h, m);
      case ScriptLoad(f, env, now) => err := ScriptLoaded(f, env, now);
      case ScriptError(f) => err := ScriptFailed(f, ErrorEvent(f));
      case ScriptTimeout(f) => err := ScriptTimer(f);
      case Tick(i, env, now) => err := PollTick(i, env, now);
    }
  }
}

=== FILE: locks.dfy ===
/** The lock table of angularjs-loader.js:170-210: a map from lock key to
    "done" (`false` while in flight) plus the count of outstanding locks,
    and the flag that makes the bootstrap happen once. */
module Locks {
  import opened Wrappers

  datatype Table = Table(locks: map<string, bool>, count: int, bootstrapped: bool)

  /** The errors `lock` and `unlock` throw. */
  datatype LockError =
    | LoadedTwice(key: string)      // "is being loaded twice."
    | NotLoaded(key: string)        // "was not loaded."
    | UnlockedTwice(key: string)    // "was loaded twice."
    | AlreadyBootstrapped           // "App already bootstrapped."

  /** The new table, whether this step scheduled the bootstrap, and the
      error thrown, if any. */
  datatype Step = Step(table: Table, bootstrap: bool, err: Option<LockError>)

  const Empty := Table(map[], 0, false)

  function InFlight(locks: map<string, bool>): set<string> {
    set k | k in locks && !locks[k]
  }

  /** The count is the number of in-flight entries. */
  ghost predicate Consistent(t: Table) {
    t.count == |InFlight(t.locks)|
  }

  function Bootstraps(t: Table): nat {
    if t.bootstrapped then 1 else 0
  }

  function Locked(t: Table, key: string): bool {
    key in t.locks
  }

  /** `lock(name)`. */
  function Lock(t: Table, key: string): (r: Step)
    ensures !r.bootstrap
  {
    if key in t.locks then Step(t, false, Some(LoadedTwice(key)))
    else Step(t.(locks := t.locks[key := false], count := t.count + 1), false, None)
  }

  /** `unlock(name)`: both checks come before any change; the count that
      returns to zero a second time throws after the entry and the count
      have been updated. */
  function Unlock(t: Table, key: string): (r: Step)
    ensures r.table.locks.Keys == t.locks.Keys
    ensures r.table.bootstrapped == (t.bootstrapped || r.bootstrap)
    ensures r.bootstrap ==> !t.bootstrapped && r.err.None?
  {
    if key !in t.locks then Step(t, false, Some(NotLoaded(key)))
    else if t.locks[key] then Step(t, false, Some(UnlockedTwice(key)))
    else
      var t1 := t.(locks := t.locks[key := true], count := t.count - 1);
      if t1.count != 0 then Step(t1, false, None)
      else if t.bootstrapped then Step(t1, false, Some(AlreadyBootstrapped))
      else Step(t1.(bootstrapped := true), true, None)
  }

  /** `lock` refuses exactly a key that is present and then changes
      nothing; otherwise it adds the key as in flight and counts it. */
  lemma LockOutcome(t: Table, key: string)
    ensures var r := Lock(t, key);
            && (r.err.Some? <==> key in t.locks)
            && (r.err.Some? ==> r.err == Some(LoadedTwice(key)) && r.table == t)
            && (r.err.None? ==> r.table.locks == t.locks[key := false] && r.table.count == t.count + 1
                                && r.table.bootstrapped == t.bootstrapped)
  {
  }

  /** `unlock` throws "was not loaded" for an absent key and "was loaded
      twice" for a done one, in both cases before changing anything;
      otherwise the entry becomes done and the count drops by one, and the
      only error left is the second return to zero. */
  lemma UnlockOutcome(t: Table, key: string)
    ensures var r := Unlock(t, key);
            && (r.err == Some(NotLoaded(key)) <==> key !in t.locks)
            && (r.err == Some(UnlockedTwice(key)) <==> key in t.locks && t.locks[key])
            && (r.err in {Some(NotLoaded(key)), Some(UnlockedTwice(key))} ==> r.table == t && !r.bootstrap)
            && (key in t.locks && !t.locks[key] ==>
                  && r.table.locks == t.locks[key := true]
                  && r.table.count == t.count - 1
                  && (r.err.Some? <==> r.table.count == 0 && t.bootstrapped)
                  && (r.err.Some? ==> r.err == Some(AlreadyBootstrapped)))
  {
  }

  /** The bootstrap is scheduled exactly when the count reaches zero for
      the first time. */
  lemma BootstrapWhenFirstZero(t: Table, key: string)
    ensures var r := Unlock(t, key);
            r.bootstrap <==> key in t.locks && !t.locks[key] && t.count == 1 && !t.bootstrapped
    ensures var r := Unlock(t, key);
            key in t.locks && !t.locks[key] && t.count == 1 && t.bootstrapped ==> r.err == Some(AlreadyBootstrapped)
    ensures var r := Unlock(t, key);
            Bootstraps(r.table) == Bootstraps(t) + (if r.bootstrap then 1 else 0)
  {
  }

  /** Entries are never removed and a done entry stays done. */
  lemma KeysOnlyGrow(t: Table, key: string)
    ensures t.locks.Keys <= Lock(t, key).table.locks.Keys
    ensures t.locks.Keys <= Unlock(t, key).table.locks.Keys
    ensures forall k :: k in t.locks && t.locks[k] ==> Lock(t, key).table.locks[k] && Unlock(t, key).table.locks[k]
  {
  }

  lemma InFlightAdd(locks: map<string, bool>, key: string)
    requires key !in locks
    ensures InFlight(locks[key := false]) == InFlight(locks) + {key}
    ensures key !in InFlight(locks)
  {
  }

  lemma InFlightDone(locks: map<string, bool>, key: string)
    requires key in locks && !locks[key]
    ensures InFlight(locks[key := true]) == InFlight(locks) - {key}
    ensures key in InFlight(locks)
  {
  }

  /** `lock` keeps the count equal to the number of in-flight entries. */
  lemma {:induction false} LockKeepsConsistent(t: Table, key: string)
    requires Consistent(t)
    ensures Consistent(Lock(t, key).table)
  {
    if key !in t.locks {
      InFlightAdd(t.locks, key);
    }
  }

  /** `unlock` keeps the count equal to the number of in-flight entries,
      also when it throws after the update. */
  lemma {:induction false} UnlockKeepsConsistent(t: Table, key: string)
    requires Consistent(t)
    ensures Consistent(Unlock(t, key).table)
  {
    if key in t.locks && !t.locks[key] {
      InFlightDone(t.locks, key);
    }
  }

  /** When the bootstrap is scheduled every lock ever taken is done. */
  lemma {:induction false} BootstrapMeansAllDone(t: Table, key: string)
    requires Consistent(t)
    requires Unlock(t, key).bootstrap
    ensures forall k :: k in Unlock(t, key).table.locks ==> Unlock(t, key).table.locks[k]
  {
    var r := Unlock(t, key).table;
    UnlockKeepsConsistent(t, key);
    assert |InFlight(r.locks)| == 0;
    assert InFlight(r.locks) == {};
    forall k | k in r.locks ensures r.locks[k] {
      assert k !in InFlight(r.locks);
    }
  }

  /** An operation on the table from outside: `lock` or `unlock`. */
  datatype Op = LockOp(key: string) | UnlockOp(key: string)

  function Apply(t: Table, op: Op): Step {
    match op
    case LockOp(k) => Lock(t, k)
    case UnlockOp(k) => Unlock(t, k)
  }

  /** The table after `ops`, errors or not (a thrown error does not stop
      later calls), and the number of bootstraps scheduled on the way. */
  function Run(t: Table, ops: seq<Op>): (Table, nat)
    decreases |ops|
  {
    if ops == [] then (t, 0)
    else
      var r := Apply(t, ops[0]);
      var rest := Run(r.table, ops[1..]);
      (rest.0, rest.1 + if r.bootstrap then 1 else 0)
  }

  /** Over any sequence of calls the bootstraps scheduled are exactly the
      change of the flag, so at most one in the life of the table. */
  lemma {:induction false} BootstrapAtMostOnce(t: Table, ops: seq<Op>)
    ensures Run(t, ops).1 + Bootstraps(t) == Bootstraps(Run(t, ops).0)
    ensures Run(t, ops).1 <= 1
    decreases |ops|
  {
    if ops != [] {
      var r := Apply(t, ops[0]);
      if ops[0].UnlockOp? {
        BootstrapWhenFirstZero(t, ops[0].key);
      }
      BootstrapAtMostOnce(r.table, ops[1..]);
    }
  }

  /** The count stays the number of in-flight entries over any sequence of
      calls, so it is never negative. */
  lemma {:induction false} RunKeepsConsistent(t: Table, ops: seq<Op>)
    requires Consistent(t)
    ensures Consistent(Run(t, ops).0)
    ensures Run(t, ops).0.count >= 0
    decreases |ops|
  {
    if ops != [] {
      var r := Apply(t, ops[0]);
      if ops[0].LockOp? {
        LockKeepsConsistent(t, ops[0].key);
      } else {
        UnlockKeepsConsistent(t, ops[0].key);
      }
      RunKeepsConsistent(r.table, ops[1..]);
    }
  }
}

=== FILE: maps.dfy ===
/** JavaScript objects used as dictionaries, and `extend(orig, extension,
    override)` (angularjs-loader.js:50-60): copy the keys of `extension`
    into `orig`, replacing existing keys only when `override` holds (the
    source defaults it to true). */
module Maps {

  /** What `extend` leaves in the entries of `orig`, whatever the order. */
  function Extend<K, V>(orig: map<K, V>, ext: map<K, V>, override: bool): (r: map<K, V>)
    ensures r.Keys == orig.Keys + ext.Keys
    ensures forall k :: k in ext && (override || k !in orig) ==> r[k] == ext[k]
    ensures forall k :: k in orig && (k !in ext || !override) ==> r[k] == orig[k]
  {
    if override then orig + ext else ext + orig
  }

  /** An object: its own keys in enumeration (insertion) order, and its
      entries. */
  datatype Obj<V> = Obj(order: seq<string>, entries: map<string, V>)

  /** The order lists the keys and nothing else. */
  predicate WellFormed<V>(o: Obj<V>) {
    && (forall k | k in o.entries :: k in o.order)
    && (forall k | k in o.order :: k in o.entries)
  }

  type Object<V> = o: Obj<V> | WellFormed(o) witness Obj([], map[])

  /** `o[k] = v`: a new key is enumerated last, an existing one keeps its
      place. */
  function Put<V>(o: Object<V>, k: string, v: V): (r: Object<V>)
    ensures r.entries == o.entries[k := v]
    ensures k in o.entries ==> r.order == o.order
    ensures k !in o.entries ==> r.order == o.order + [k]
  {
    if k in o.entries then Obj(o.order, o.entries[k := v])
    else Obj(o.order + [k], o.entries[k := v])
  }

  /** The key loop of `extend` over the keys `names` of `ext`, in order. */
  function Assign<V>(o: Object<V>, names: seq<string>, ext: map<string, V>, override: bool): Object<V>
    requires forall i :: 0 <= i < |names| ==> names[i] in ext
    decreases |names|
  {
    if names == [] then o
    else
      var k := names[0];
      Assign(if override || k !in o.entries then Put(o, k, ext[k]) else o, names[1..], ext, override)
  }

  /** The loop adds exactly the listed keys; a listed key takes the
      extension's value when `override` is set or the key is new. */
  lemma {:induction false} AssignEntries<V>(o: Object<V>, names: seq<string>, ext: map<string, V>, override: bool)
    requires forall i :: 0 <= i < |names| ==> names[i] in ext
    ensures var r := Assign(o, names, ext, override);
      && (forall k :: k in r.entries <==> k in o.entries || k in names)
      && (forall k :: k in r.entries ==>
            r.entries[k] == if k in names && (override || k !in o.entries) then ext[k] else o.entries[k])
    decreases |names|
  {
    if names != [] {
      var k := names[0];
      var o1 := if override || k !in o.entries then Put(o, k, ext[k]) else o;
      AssignEntries(o1, names[1..], ext, override);
      assert forall j :: j in names <==> j == k || j in names[1..];
    }
  }

  /** One turn of the key loop. */
  lemma AssignFirst<V>(o: Object<V>, names: seq<string>, ext: map<string, V>, override: bool)
    requires names != [] && forall i :: 0 <= i < |names| ==> names[i] in ext
    ensures var k := names[0];
      Assign(o, names, ext, override) == Assign(if override || k !in o.entries then Put(o, k, ext[k]) else o, names[1..], ext, override)
  {
  }

  /** The keys already present keep their places at the front. */
  lemma {:induction false} AssignKeepsOrder<V>(o: Object<V>, names: seq<string>, ext: map<string, V>, override: bool)
    requires forall i :: 0 <= i < |names| ==> names[i] in ext
    ensures var r := Assign(o, names, ext, override);
      |o.order| <= |r.order| && r.order[..|o.order|] == o.order
    decreases |names|
  {
    if names != [] {
      var k := names[0];
      var o1 := if override || k !in o.entries then Put(o, k, ext[k]) else o;
      AssignFirst(o, names, ext, override);
      AssignKeepsOrder(o1, names[1..], ext, override);
      var r := Assign(o1, names[1..], ext, override);
      assert r.order[..|o.order|] == r.order[..|o1.order|][..|o.order|];
    }
  }

  /** `extend` on objects. */
  function ExtendObject<V>(orig: Object<V>, ext: Object<V>, override: bool): Object<V> {
    Assign(orig, ext.order, ext.entries, override)
  }

  /** The entries `extend` leaves on an object are those of `Extend`, and
      the keys `orig` already had keep their places at the front. */
  lemma ExtendObjectMeaning<V>(orig: Object<V>, ext: Object<V>, override: bool)
    ensures ExtendObject(orig, ext, override).entries == Extend(orig.entries, ext.entries, override)
    ensures var r := ExtendObject(orig, ext, override);
      |orig.order| <= |r.order| && r.order[..|orig.order|] == orig.order
  {
    AssignEntries(orig, ext.order, ext.entries, override);
    AssignKeepsOrder(orig, ext.order, ext.entries, override);
    var r := ExtendObject(orig, ext, override);
    var e := Extend(orig.entries, ext.entries, override);
    assert r.entries.Keys == e.Keys by {
      forall k ensures k in r.entries <==> k in e {
        assert k in ext.order <==> k in ext.entries;
      }
    }
    forall k | k in e ensures r.entries[k] == e[k] {
      assert k in ext.order <==> k in ext.entries;
    }
  }

  /** The key loop of `extend`, one key of the extension at a time in its
      enumeration order. */
  method ExtendByKeys<V>(orig: Object<V>, ext: Object<V>, override: bool) returns (r: Object<V>)
    ensures r == ExtendObject(orig, ext, override)
  {
    r := orig;
    for i := 0 to |ext.order|
      invariant Assign(r, ext.order[i..], ext.entries, override) == Assign(orig, ext.order, ext.entries, override)
    {
      var name := ext.order[i];
      AssignFirst(r, ext.order[i..], ext.entries, override);
      assert ext.order[i..][1..] == ext.order[i + 1..];
      if override || name !in r.entries {
        r := Put(r, name, ext.entries[name]);
      }
    }
  }
}

=== FILE: outcomes.dfy ===
/** What each public call and each completion does to the loader state,
    event by event: which locks it takes or releases, what it settles and
    which error it throws. */
module Outcomes {
  import opened Wrappers
  import Locks
  import Futures
  import Checkers
  import Configuration
  import Scheduling
  import opened Engine

  /** The source's `p && ...` test on a resolved path: not `null` and not
      empty. */
  predicate Resolves(s: State, name: string) {
    Resolve(s, name).Some? && Resolve(s, name).value != ""
  }

  /** `t` is `s` with the keys `added` locked as in flight, and nothing
      else in the table changed. */
  ghost predicate LocksAdded(s: Locks.Table, t: Locks.Table, added: iset<string>) {
    && (forall k :: k in t.locks <==> k in s.locks || k in added)
    && (forall k :: k in s.locks ==> t.locks[k] == s.locks[k])
    && (forall k :: k in t.locks && k !in s.locks ==> !t.locks[k])
    && t.bootstrapped == s.bootstrapped
  }

  /** Pre-locking (angularjs-loader.js:303-310) leaves every listed module
      locked, adds the new ones as in flight, and changes nothing else. */
  lemma {:induction false} PreLockLocksModules(s: State, modules: seq<string>)
    ensures var r := PreLock(s, modules);
      && r == s.(table := r.table)
      && LocksAdded(s.table, r.table, iset m | m in modules)
    decreases |modules|
  {
    if modules != [] {
      var m := modules[0];
      var s1 := if m in s.table.locks then s else Lock(s, m).state;
      Locks.LockOutcome(s.table, m);
      PreLockLocksModules(s1, modules[1..]);
      assert forall k :: k in modules <==> k == m || k in modules[1..];
    }
  }

  /** Locking `a` and then `b` locks their union. */
  lemma LocksAddedTrans(s: Locks.Table, m: Locks.Table, t: Locks.Table, a: iset<string>, b: iset<string>)
    requires LocksAdded(s, m, a) && LocksAdded(m, t, b)
    ensures LocksAdded(s, t, a + b)
  {
  }

  /** One turn of the dependency loop locks `d` when it resolves. */
  lemma DependencyTurn(s: State, d: string)
    ensures var s1 := if Resolve(s, d).None? || Resolve(s, d).value == "" || d in s.table.locks then s
                      else Issue(Lock(s, d).state, Resolve(s, d).value, ModuleDependency);
      && s1 == s.(table := s1.table, fetches := s1.fetches)
      && LocksAdded(s.table, s1.table, if Resolves(s, d) then iset{d} else iset{})
  {
    Locks.LockOutcome(s.table, d);
  }

  /** The dependency loop (angularjs-loader.js:423-433) locks, by name and
      as in flight, exactly the dependencies whose path resolves and that
      were not locked; besides the table only the fetches change. */
  lemma {:induction false} DependenciesLockNames(s: State, ds: seq<string>)
    ensures var r := Dependencies(s, ds);
      && r == s.(table := r.table, fetches := r.fetches)
      && LocksAdded(s.table, r.table, iset d | d in ds && Resolves(s, d))
    decreases |ds|
  {
    DependenciesKeepRest(s, ds);
    DependenciesLockNamesOnly(s, ds);
  }

  lemma DependencyNamesSplit(s: State, s1: State, ds: seq<string>)
    requires ds != [] && s1.config == s.config && s1.root == s.root
    ensures (if Resolves(s, ds[0]) then iset{ds[0]} else iset{}) + (iset k | k in ds[1..] && Resolves(s1, k))
      == iset k | k in ds && Resolves(s, k)
  {
    assert forall k :: k in ds <==> k == ds[0] || k in ds[1..];
  }

  /** Besides the table only the fetches change. */
  lemma {:induction false} DependenciesKeepRest(s: State, ds: seq<string>)
    ensures var r := Dependencies(s, ds); r == s.(table := r.table, fetches := r.fetches)
    decreases |ds|
  {
    if ds != [] {
      var d := ds[0];
      var p := Resolve(s, d);
      var s1 := if p.None? || p.value == "" || d in s.table.locks then s
                else Issue(Lock(s, d).state, p.value, ModuleDependency);
      DependenciesKeepRest(s1, ds[1..]);
    }
  }

  lemma {:induction false} DependenciesLockNamesOnly(s: State, ds: seq<string>)
    ensures var r := Dependencies(s, ds);
      LocksAdded(s.table, r.table, iset d | d in ds && Resolves(s, d))
    decreases |ds|
  {
    if ds != [] {
      var d := ds[0];
      var p := Resolve(s, d);
      var s1 := if p.None? || p.value == "" || d in s.table.locks then s
                else Issue(Lock(s, d).state, p.value, ModuleDependency);
      DependencyTurn(s, d);
      DependenciesLockNamesOnly(s1, ds[1..]);
      var r := Dependencies(s1, ds[1..]);
      var a := if Resolves(s, d) then iset{d} else iset{};
      var b := iset k | k in ds[1..] && Resolves(s1, k);
      LocksAddedTrans(s.table, s1.table, r.table, a, b);
      DependencyNamesSplit(s, s1, ds);
    }
  }

  /** The loop only appends fetches, each pending and listened to by
      nobody. */
  lemma {:induction false} DependenciesAppendFetches(s: State, ds: seq<string>)
    ensures var r := Dependencies(s, ds);
      && |s.fetches| <= |r.fetches|
      && (forall i :: 0 <= i < |s.fetches| ==> r.fetches[i] == s.fetches[i])
      && (forall i :: |s.fetches| <= i < |r.fetches| ==> r.fetches[i].link == ModuleDependency && r.fetches[i].status.Pending?)
    decreases |ds|
  {
    if ds != [] {
      var d := ds[0];
      var s1 := if !Resolves(s, d) || d in s.table.locks then s
                else Issue(Lock(s, d).state, Resolve(s, d).value, ModuleDependency);
      assert Dependencies(s, ds) == Dependencies(s1, ds[1..]);
      DependenciesAppendFetches(s1, ds[1..]);
    }
  }

  /** The wrapped `angular.module` (angularjs-loader.js:407-440): without
      the captured original it throws and changes nothing; a lookup
      changes nothing; a definition, after its dependencies, unlocks its
      own name exactly when that name resolves: an in-flight name becomes
      done, an unlocked name throws "was not loaded" and a name that does
      not resolve is left alone. */
  lemma RegisterModuleOutcome(s: State, hostCaptured: bool, m: ModuleCall)
    ensures !hostCaptured ==> RegisterModule(s, hostCaptured, m) == Outcome(s, Some(AngularNotLoaded))
    ensures hostCaptured && m.Lookup? ==> RegisterModule(s, hostCaptured, m) == Outcome(s, None)
    ensures hostCaptured && m.Define? ==>
      var s1 := if m.deps.Some? then Dependencies(s, m.deps.value) else s;
      var r := RegisterModule(s, hostCaptured, m);
      && (!Resolves(s, m.name) ==> r == Outcome(s1, None))
      && (Resolves(s, m.name) && m.name !in s1.table.locks ==>
            r.err == Some(LockFailed(Locks.NotLoaded(m.name))) && r.state.table == s1.table)
      && (Resolves(s, m.name) && m.name in s1.table.locks && !s1.table.locks[m.name] ==>
            r.state.table.locks == s1.table.locks[m.name := true])
  {
    if hostCaptured && m.Define? {
      var s1 := if m.deps.Some? then Dependencies(s, m.deps.value) else s;
      if m.deps.Some? {
        DependenciesLockNames(s, m.deps.value);
      }
      assert Resolve(s1, m.name) == Resolve(s, m.name);
      Locks.UnlockOutcome(s1.table, m.name);
    }
  }

  /** `init(options)` (angularjs-loader.js:449-472): the options and the
      configuration are taken in any case; a missing `app` then throws
      without touching the lock table; an app name already locked throws
      "is being loaded twice"; otherwise, without `boot`, the app name is
      the one lock added and the loader is initialized, and with `boot` it
      then loads the app as `loaderFn(app)` does. */
  lemma InitOutcome(s: State, o: InitOptions)
    ensures var r := Init(s, o);
      o.app == "" ==>
        && r.err == Some(MissingApp)
        && r.state == s.(app := o.app, root := o.root, timeout := r.state.timeout, config := Configuration.Replace(s.config, o.config))
        && r.state.timeout == (if o.timeout > 0 then o.timeout else 30000)
    ensures var r := Init(s, o);
      o.app != "" && o.app in s.table.locks ==>
        r.err == Some(LockFailed(Locks.LoadedTwice(o.app))) && r.state.table == s.table && r.state.initialized == s.initialized
    ensures var r := Init(s, o);
      o.app != "" && o.app !in s.table.locks && !o.boot ==>
        && r.err.None? && r.state.initialized
        && r.state.table.locks == s.table.locks[o.app := false]
        && r.state.table.count == s.table.count + 1
        && r.state.calls == s.calls && r.state.fetches == s.fetches
        && r.state.config == Configuration.Replace(s.config, o.config)
    ensures o.app != "" && o.app !in s.table.locks && o.boot ==>
      && Init(s, o.(boot := false)).err.None?
      && Init(s, o) == Load(Init(s, o.(boot := false)).state, Single(o.app), Defaults)
  {
    if o.app != "" {
      Locks.LockOutcome(s.table, o.app);
    }
  }

  /** A load event reaching a script's checker (angularjs-loader.js:312-336):
      the lock is released at once exactly when the call has no checker for
      the key or the checker already holds; otherwise a poll is started and
      the table is left alone. */
  lemma UnlockOnCheckerOutcome(s: State, c: nat, key: string, lock: string, env: Checkers.Env, now: int)
    requires c < |s.calls|
    ensures var cs := s.calls[c].checkers; var r := UnlockOnChecker(s, c, key, lock, env, now);
      var ready := key !in cs || Checkers.Holds(cs[key], key, env);
      && (lock in s.table.locks && !s.table.locks[lock] ==> (r.state.table.locks[lock] <==> ready))
      && (ready ==> r.state.polls == s.polls)
      && (!ready ==> && r.err.None? && r.state.table == s.table
                     && r.state.polls == s.polls + [Poll(cs[key], key, lock, now, s.calls[c].timeout, true)])
  {
    Locks.UnlockOutcome(s.table, lock);
  }

  /** One tick of a checker interval (angularjs-loader.js:324-334): a
      stopped poll does nothing; the lock is released exactly when the
      checker holds; "Timed out" is thrown only when the checker fails
      once `now - start` has reached the timeout; in both cases the poll
      stops, and otherwise it goes on unchanged. */
  lemma PollTickOutcome(s: State, i: nat, env: Checkers.Env, now: int)
    requires i < |s.polls|
    ensures var pl := s.polls[i]; var r := PollTick(s, i, env, now);
      var holds := Checkers.Holds(pl.checker, pl.key, env);
      && (!pl.active ==> r == Outcome(s, None))
      && (pl.active && holds && pl.lock in s.table.locks && !s.table.locks[pl.lock] ==> r.state.table.locks[pl.lock])
      && (r.err == Some(TimedOut) <==> pl.active && !holds && now - pl.start >= pl.timeout)
      && (r.err == Some(TimedOut) ==> r.state.table == s.table)
      && (pl.active && (holds || now - pl.start >= pl.timeout) ==> !r.state.polls[i].active)
      && (pl.active && !holds && now - pl.start < pl.timeout ==> r == Outcome(s, None))
  {
    Locks.UnlockOutcome(s.table, s.polls[i].lock);
  }

  /** The success subscribers of a sequential link that fire after the
      `then` of `recursiveLoader` (angularjs-loader.js:361-365): with none
      the fetch just settles; the first resolves a pending call with the
      value; a second finds it settled and throws. */
  lemma ForwardOutcome(s: State, c: nat, f: nat, v: Val)
    requires c < |s.calls| && f < |s.fetches|
    ensures var fe := s.fetches[f]; var k := if fe.link.SequenceLink? then fe.link.forwards else 0;
      var r := Forward(s, c, f, v);
      && (k == 0 ==> r.err.None? && r.state == Settle(s, f, Futures.Resolved(v)))
      && (k >= 1 && s.calls[c].result.Pending? ==> r.state.calls[c].result == Futures.Resolved(v) && (r.err.None? <==> k == 1))
      && (k >= 1 && !s.calls[c].result.Pending? ==> r == Outcome(s, Some(ResolvedTwice)))
  {
  }

  /** The `load` event of a pending fetch of a parallel call
      (angularjs-loader.js:385-390): the counter drops by one; the call is
      resolved, with `undefined` since the bound subscriber drops the
      event, exactly when the counter reaches zero; when nothing throws,
      the fetch settles with the event. */
  lemma ParallelLoadedOutcome(s: State, f: nat, env: Checkers.Env, now: int)
    requires Valid(s) && f < |s.fetches| && s.fetches[f].status.Pending? && s.fetches[f].link.ParallelLink?
    ensures var c := s.fetches[f].link.call; var call := s.calls[c]; var r := ScriptLoaded(s, f, env, now);
      && (call.counter != 1 ==> r.err.None? || r.err.value.LockFailed?)
      && (call.counter == 1 && !call.result.Pending? ==> r.err == Some(ResolvedTwice))
      && (r.err.None? ==>
            && r.state.calls[c].counter == call.counter - 1
            && r.state.calls[c].result == (if call.counter == 1 then Futures.Resolved(Undefined) else call.result)
            && r.state.fetches[f].status == Futures.Resolved(LoadEvent(f)))
    ensures var fe := s.fetches[f]; var c := fe.link.call; var r := ScriptLoaded(s, f, env, now);
      var cs := s.calls[c].checkers; var key := fe.link.key;
      var ready := key !in cs || Checkers.Holds(cs[key], key, env);
      r.err.None? ==>
        && (fe.path in s.table.locks && !s.table.locks[fe.path] ==> (r.state.table.locks[fe.path] <==> ready))
        && r.state.polls == (if ready then s.polls else s.polls + [Poll(cs[key], key, fe.path, now, s.calls[c].timeout, true)])
  {
    var c := s.fetches[f].link.call;
    var call := s.calls[c];
    var s1 := WithCall(s, c, call.(counter := call.counter - 1));
    var s2 := if call.counter - 1 == 0 then WithCall(s1, c, s1.calls[c].(result := Futures.Resolved(Undefined))) else s1;
    UnlockOnCheckerOutcome(s2, c, s.fetches[f].link.key, s.fetches[f].path, env, now);
  }

  /** What the `load` event of a pending fetch `f` of a sequential call
      leaves of the chain when nothing throws: the call's next fetch, if
      any, is the path of the last request it took, which was fetchable;
      without one the list is used up. */
  ghost predicate SequenceFetchesNext(s: State, f: nat, r: Outcome)
    requires f < |s.fetches| && s.fetches[f].link.SequenceLink? && s.fetches[f].link.call < |s.calls|
  {
    var c := s.fetches[f].link.call; var rem := s.calls[c].remaining; var n := |s.fetches|;
    r.err.None? ==>
      && |r.state.calls| == |s.calls|
      && (|r.state.fetches| == n || |r.state.fetches| == n + 1)
      && |r.state.calls[c].remaining| <= |rem|
      && (|r.state.fetches| == n ==> r.state.calls[c].remaining == [])
      && (var taken := |rem| - |r.state.calls[c].remaining|;
          |r.state.fetches| == n + 1 ==>
            && 1 <= taken
            && Fetchable(s, RequestPath(s, rem[taken - 1], "src"))
            && r.state.fetches[n] == Fetch(RequestPath(s, rem[taken - 1], "src").value, SequenceLink(c, Key(rem[taken - 1]), 0), Futures.Pending))
  }

  /** What the same event settles when nothing throws: the script's lock is
      released exactly when the key has no checker or its checker holds;
      the call resolves with the load event exactly when its list was used
      up or the fetch already had a subscription, and it was pending then;
      the fetch settles with the event. */
  ghost predicate SequenceSettles(s: State, f: nat, env: Checkers.Env, r: Outcome)
    requires f < |s.fetches| && s.fetches[f].link.SequenceLink? && s.fetches[f].link.call < |s.calls|
  {
    var fe := s.fetches[f]; var c := fe.link.call;
    var cs := s.calls[c].checkers; var key := fe.link.key;
    var forwarded := |r.state.fetches| == |s.fetches| || fe.link.forwards > 0;
    r.err.None? ==>
      && |r.state.calls| == |s.calls| && f < |r.state.fetches|
      && r.state.fetches[f].status == Futures.Resolved(LoadEvent(f))
      && (fe.path in s.table.locks && !s.table.locks[fe.path] ==>
            fe.path in r.state.table.locks && (r.state.table.locks[fe.path] <==> key !in cs || Checkers.Holds(cs[key], key, env)))
      && (forwarded ==> s.calls[c].result.Pending?)
      && r.state.calls[c].result == (if forwarded then Futures.Resolved(LoadEvent(f)) else s.calls[c].result)
  }

  /** `recursiveLoader(d)` on its own already leaves the chain as
      `SequenceFetchesNext` says. */
  lemma AdvanceFetchesNext(s: State, f: nat)
    requires f < |s.fetches| && s.fetches[f].link.SequenceLink? && s.fetches[f].link.call < |s.calls|
    ensures SequenceFetchesNext(s, f, Advance(s, s.fetches[f].link.call, Some(f)))
  {
    var c := s.fetches[f].link.call;
    var a := Advance(s, c, Some(f));
    if a.err.None? {
      Scheduling.AdvanceFetchesAtMostOne(s, c, Some(f));
      if |a.state.fetches| == |s.fetches| {
        AdvanceUsedUp(s, f);
      } else {
        AdvanceFetched(s, f);
      }
    }
  }

  /** The case where `recursiveLoader(d)` fetches nothing. */
  lemma AdvanceUsedUp(s: State, f: nat)
    requires f < |s.fetches| && s.fetches[f].link.SequenceLink? && s.fetches[f].link.call < |s.calls|
    requires var a := Advance(s, s.fetches[f].link.call, Some(f)); a.err.None? && |a.state.fetches| == |s.fetches|
    ensures SequenceFetchesNext(s, f, Advance(s, s.fetches[f].link.call, Some(f)))
  {
    Scheduling.AdvanceExhausts(s, s.fetches[f].link.call, Some(f));
  }

  /** The case where `recursiveLoader(d)` fetches the next script. */
  lemma AdvanceFetched(s: State, f: nat)
    requires f < |s.fetches| && s.fetches[f].link.SequenceLink? && s.fetches[f].link.call < |s.calls|
    requires var a := Advance(s, s.fetches[f].link.call, Some(f)); a.err.None? && |a.state.fetches| == |s.fetches| + 1
    ensures SequenceFetchesNext(s, f, Advance(s, s.fetches[f].link.call, Some(f)))
  {
    Scheduling.AdvanceFetchesLastTaken(s, s.fetches[f].link.call, Some(f));
    NextFromFetch(s, f, Advance(s, s.fetches[f].link.call, Some(f)));
  }

  /** An outcome that fetched the path of the last request it took, a
      fetchable one, satisfies `SequenceFetchesNext`. */
  lemma NextFromFetch(s: State, f: nat, a: Outcome)
    requires f < |s.fetches| && s.fetches[f].link.SequenceLink? && s.fetches[f].link.call < |s.calls|
    requires a.err.None? && |a.state.calls| == |s.calls| && |a.state.fetches| == |s.fetches| + 1
    requires Scheduling.FetchedLast(s, s.fetches[f].link.call, a)
    ensures SequenceFetchesNext(s, f, a)
  {
  }

  /** An outcome that keeps the call's list and the fetches issued since
      `s` keeps `SequenceFetchesNext`. */
  lemma FetchesNextCarries(s: State, f: nat, a: Outcome, r: Outcome)
    requires f < |s.fetches| && s.fetches[f].link.SequenceLink? && s.fetches[f].link.call < |s.calls|
    requires SequenceFetchesNext(s, f, a)
    requires var c := s.fetches[f].link.call;
      r.err.None? ==>
        && a.err.None? && |r.state.calls| == |a.state.calls| && |r.state.fetches| == |a.state.fetches|
        && r.state.calls[c].remaining == a.state.calls[c].remaining
        && (|a.state.fetches| == |s.fetches| + 1 ==> r.state.fetches[|s.fetches|] == a.state.fetches[|s.fetches|])
    ensures SequenceFetchesNext(s, f, r)
  {
  }

  lemma SequenceLoadedNext(s: State, f: nat, env: Checkers.Env, now: int)
    requires Valid(s) && f < |s.fetches| && s.fetches[f].status.Pending? && s.fetches[f].link.SequenceLink?
    ensures SequenceFetchesNext(s, f, ScriptLoaded(s, f, env, now))
  {
    var fe := s.fetches[f];
    var c := fe.link.call;
    var a := Advance(s, c, Some(f));
    AdvanceFetchesNext(s, f);
    var r := ScriptLoaded(s, f, env, now);
    if a.err.None? {
      var o2 := UnlockOnChecker(a.state, c, fe.link.key, fe.path, env, now);
      if o2.err.None? {
        assert r == Forward(o2.state, c, f, LoadEvent(f));
      }
    }
    FetchesNextCarries(s, f, a, r);
  }

  lemma SequenceLoadedSettles(s: State, f: nat, env: Checkers.Env, now: int)
    requires Valid(s) && f < |s.fetches| && s.fetches[f].status.Pending? && s.fetches[f].link.SequenceLink?
    ensures SequenceSettles(s, f, env, ScriptLoaded(s, f, env, now))
  {
    var fe := s.fetches[f];
    var c := fe.link.call;
    var a := Advance(s, c, Some(f));
    Scheduling.AdvanceKeeps(s, c, Some(f));
    Scheduling.AdvanceFetchesAtMostOne(s, c, Some(f));
    Scheduling.AdvanceFetchesLastTaken(s, c, Some(f));
    Scheduling.AdvanceExhausts(s, c, Some(f));
    if a.err.None? {
      var o2 := UnlockOnChecker(a.state, c, fe.link.key, fe.path, env, now);
      UnlockOnCheckerOutcome(a.state, c, fe.link.key, fe.path, env, now);
      if o2.err.None? {
        ForwardOutcome(o2.state, c, f, LoadEvent(f));
      }
    }
  }

  /** The `load` event of a pending fetch of a sequential call
      (angularjs-loader.js:348-351, 361-365): the subscriber runs
      `recursiveLoader(d)`, then releases the script's lock through the
      call's checker, then the subscriptions added on the way fire. */
  lemma SequenceLoadedOutcome(s: State, f: nat, env: Checkers.Env, now: int)
    requires Valid(s) && f < |s.fetches| && s.fetches[f].status.Pending? && s.fetches[f].link.SequenceLink?
    ensures SequenceFetchesNext(s, f, ScriptLoaded(s, f, env, now))
    ensures SequenceSettles(s, f, env, ScriptLoaded(s, f, env, now))
  {
    SequenceLoadedNext(s, f, env, now);
    SequenceLoadedSettles(s, f, env, now);
  }

  /** A `load` event for a fetch that is no longer pending throws
      "Deferred resolved twice." and changes nothing; a dependency fetch
      just settles. */
  lemma ScriptLoadedSettles(s: State, f: nat, env: Checkers.Env, now: int)
    requires Valid(s) && f < |s.fetches|
    ensures !s.fetches[f].status.Pending? ==> ScriptLoaded(s, f, env, now) == Outcome(s, Some(ResolvedTwice))
    ensures s.fetches[f].status.Pending? && s.fetches[f].link.ModuleDependency? ==>
      ScriptLoaded(s, f, env, now) == Outcome(Settle(s, f, Futures.Resolved(LoadEvent(f))), None)
  {
  }

  /** The `error` event of a fetch (angularjs-loader.js:351-353, 391-392):
      a parallel call and the fetch are rejected with the reason, even if
      the call was already resolved; a dependency fetch alone is rejected;
      in a sequential chain the error subscriber throws, so neither the
      fetch nor the call settles. */
  lemma ScriptFailedOutcome(s: State, f: nat, reason: Val)
    requires Valid(s) && f < |s.fetches|
    ensures var fe := s.fetches[f]; var r := ScriptFailed(s, f, reason);
      && (fe.link.ParallelLink? ==>
            && r.err.None? && r.state.calls[fe.link.call].result == Futures.Rejected(reason)
            && r.state.fetches[f].status == Futures.Rejected(reason) && r.state.table == s.table)
      && (fe.link.ModuleDependency? ==>
            r.err.None? && r.state.calls == s.calls && r.state.fetches[f].status == Futures.Rejected(reason))
      && (fe.link.SequenceLink? ==> r == Outcome(s, Some(LoadFailed(reason))))
  {
  }

  /** The timer of `insertScript` (angularjs-loader.js:226-230) does
      nothing once the fetch has settled, and otherwise fails it with the
      timeout error. */
  lemma ScriptTimerOutcome(s: State, f: nat)
    requires Valid(s) && f < |s.fetches|
    ensures !s.fetches[f].status.Pending? ==> ScriptTimer(s, f) == Outcome(s, None)
    ensures s.fetches[f].status.Pending? && !s.fetches[f].link.SequenceLink? ==>
      ScriptTimer(s, f).err.None? && ScriptTimer(s, f).state.fetches[f].status == Futures.Rejected(TimeoutError(f))
    ensures s.fetches[f].status.Pending? && s.fetches[f].link.SequenceLink? ==>
      ScriptTimer(s, f) == Outcome(s, Some(LoadFailed(TimeoutError(f))))
  {
    if s.fetches[f].status.Pending? {
      ScriptFailedOutcome(s, f, TimeoutError(f));
    }
  }

  /** `angular.loader.lock(name)` (angularjs-loader.js:474-476) succeeds
      exactly when `ext:name` is not locked yet, and then keeps the count
      above zero, so the bootstrap waits for the matching unlock. */
  lemma ExtLockHolds(s: State, name: string)
    requires Valid(s)
    ensures ExtLock(s, name).err.None? <==> "ext:" + name !in s.table.locks
    ensures ExtLock(s, name).err.None? ==> ExtLock(s, name).state.table.count >= 1
  {
    Locks.LockOutcome(s.table, "ext:" + name);
  }

  /** An `ext:` lock and its unlock, from a state without it, leave the
      key done, the count where it was and no other key changed
      (angularjs-loader.js:474-479). */
  lemma ExtPair(s: State, name: string)
    requires "ext:" + name !in s.table.locks
    ensures var t := ExtUnlock(ExtLock(s, name).state, name).state.table;
      && t.locks == s.table.locks["ext:" + name := true]
      && t.count == s.table.count
  {
    var key := "ext:" + name;
    Locks.LockOutcome(s.table, key);
    Locks.UnlockOutcome(Lock(s, key).state.table, key);
  }
}

=== FILE: paths.dfy ===
/** `transformPath` and `pathFromModuleName` (angularjs-loader.js:133-167):
    the resource name becomes the address that is fetched and that the
    loader uses as its lock key. */
module Paths {
  import opened Wrappers

  /** A path transform, called with the path computed so far and the
      original name; `None` is a transform that returned `null`. */
  type Transform = (string, string) -> Option<string>

  /** An entry of the transform list; `None` is a falsy entry, such as the
      `undefined` that a configuration without transforms appends. */
  type TransformEntry = Option<Transform>

  /** An explicit entry of the path map: `null` (no backing file) or a path. */
  datatype Override = NoPath | PathTo(path: string)

  /** The transform loop from entry 0 of `list` on, with `path` the value
      so far: stop at the end of the list or at a falsy entry, and at a
      transform that returns `null`, keeping the value before it. */
  function TransformFrom(path: string, original: string, list: seq<TransformEntry>): string
    decreases |list|
  {
    if list == [] || list[0].None? then path
    else
      match list[0].value(path, original)
      case None => path
      case Some(next) => TransformFrom(next, original, list[1..])
  }

  /** The name comes back unchanged when the first entry is falsy or
      returns `null`, and in particular for an empty list. */
  function TransformPath(name: string, list: seq<TransformEntry>): (r: string)
    ensures list == [] || list[0].None? || list[0].value(name, name).None? ==> r == name
  {
    TransformFrom(name, name, list)
  }

  /** The pipeline runs to the end of `list`: no falsy entry and no
      transform that returns `null`. */
  predicate Completes(path: string, original: string, list: seq<TransformEntry>)
    decreases |list|
  {
    list == [] ||
    (list[0].Some? && list[0].value(path, original).Some? &&
     Completes(list[0].value(path, original).value, original, list[1..]))
  }

  /** The loop of `transformPath` as the source writes it. */
  method TransformLoop(name: string, list: seq<TransformEntry>) returns (path: string)
    ensures path == TransformPath(name, list)
  {
    var original := name;
    path := name;
    var i := 0;
    while i < |list| && list[i].Some?
      invariant 0 <= i <= |list|
      invariant TransformFrom(path, original, list[i..]) == TransformPath(name, list)
    {
      var previous := path;
      var next := list[i].value(path, original);
      if next.None? {
        return previous;
      }
      path := next.value;
      i := i + 1;
    }
  }

  /** Entries after the first falsy one are never consulted. */
  lemma {:induction false} StopsAtFalsy(path: string, original: string, before: seq<TransformEntry>, after: seq<TransformEntry>)
    ensures TransformFrom(path, original, before + [None] + after) == TransformFrom(path, original, before)
    decreases |before|
  {
    var list := before + [None] + after;
    if before == [] {
      assert list[0] == None;
    } else {
      assert list[0] == before[0];
      if before[0].Some? && before[0].value(path, original).Some? {
        assert list[1..] == before[1..] + [None] + after;
        StopsAtFalsy(before[0].value(path, original).value, original, before[1..], after);
      }
    }
  }

  /** A pipeline that completes hands its result on to what follows it. */
  lemma {:induction false} Compose(path: string, original: string, first: seq<TransformEntry>, rest: seq<TransformEntry>)
    requires Completes(path, original, first)
    ensures TransformFrom(path, original, first + rest) == TransformFrom(TransformFrom(path, original, first), original, rest)
    decreases |first|
  {
    if first == [] {
      assert first + rest == rest;
    } else {
      var next := first[0].value(path, original).value;
      assert (first + rest)[0] == first[0];
      assert (first + rest)[1..] == first[1..] + rest;
      Compose(next, original, first[1..], rest);
    }
  }

  /** A transform that returns `null` yields the value before it and stops
      the pipeline. */
  lemma StopsAtNull(path: string, original: string, before: seq<TransformEntry>, f: Transform, after: seq<TransformEntry>)
    requires Completes(path, original, before)
    requires f(TransformFrom(path, original, before), original).None?
    ensures TransformFrom(path, original, before + [Some(f)] + after) == TransformFrom(path, original, before)
  {
    assert before + [Some(f)] + after == before + ([Some(f)] + after);
    Compose(path, original, before, [Some(f)] + after);
  }

  predicate IsLineTerminator(c: char) {
    c == '\n' || c == '\r' || c == '\U{2028}' || c == '\U{2029}'
  }

  /** `s` starts with `prefix` followed by a character that `.` matches. */
  predicate UriAfter(s: string, prefix: string) {
    |s| > |prefix| && s[..|prefix|] == prefix && !IsLineTerminator(s[|prefix|])
  }

  /** The test `/^(https?:)?\/\/.+/` of angularjs-loader.js:154. */
  predicate IsUri(s: string) {
    UriAfter(s, "//") || UriAfter(s, "http://") || UriAfter(s, "https://")
  }

  /** The test `/\.js$/` of angularjs-loader.js:162. */
  predicate EndsWithJs(s: string) {
    |s| >= 3 && s[|s| - 3..] == ".js"
  }

  /** What is put in front of a non-URI path: `root + '/'` when the root is
      non-empty and the path does not start with `/`. */
  function RootPrefix(root: string, path: string): string {
    if root != "" && !(|path| > 0 && path[0] == '/') then root + "/" else ""
  }

  /** URI passthrough, root prefixing and `.js` suffixing. */
  function Finish(root: string, path: string): string {
    if IsUri(path) then path
    else
      var rooted := RootPrefix(root, path) + path;
      if EndsWithJs(rooted) then rooted else rooted + ".js"
  }

  /** The path before finishing: the explicit entry, or the name run
      through the transform list. */
  function Seed(paths: map<string, Override>, transforms: seq<TransformEntry>, name: string): string
    requires !(name in paths && paths[name].NoPath?)
  {
    if name in paths then paths[name].path else TransformPath(name, transforms)
  }

  /** `pathFromModuleName(name)` with the configuration and the root as
      parameters; `None` is the `null` result. */
  function PathFromModuleName(paths: map<string, Override>, transforms: seq<TransformEntry>, root: string, name: string): (r: Option<string>)
    ensures r.None? <==> name in paths && paths[name].NoPath?
  {
    if name in paths && paths[name].NoPath? then None
    else Some(Finish(root, Seed(paths, transforms, name)))
  }

  /** What a resolved path looks like: never empty (so the source's `!p`
      test is exactly the `null` test); a URI seed is returned unchanged;
      any other seed is placed after the root prefix and the result ends
      in `.js`, with no second `.js` added to a seed that has one. */
  lemma {:induction false} ResolvedShape(paths: map<string, Override>, transforms: seq<TransformEntry>, root: string, name: string)
    requires PathFromModuleName(paths, transforms, root, name).Some?
    ensures var s := PathFromModuleName(paths, transforms, root, name).value;
            var seed := Seed(paths, transforms, name);
            var pre := RootPrefix(root, seed);
            && |s| > 0
            && (IsUri(seed) ==> s == seed)
            && (!IsUri(seed) ==>
                  && EndsWithJs(s)
                  && |s| >= |pre| + |seed|
                  && s[..|pre|] == pre
                  && s[|pre|..|pre| + |seed|] == seed
                  && (EndsWithJs(seed) ==> s == pre + seed)
                  && (!EndsWithJs(seed) ==> s == pre + seed + ".js"))
  {
    var seed := Seed(paths, transforms, name);
    var s := PathFromModuleName(paths, transforms, root, name).value;
    var pre := RootPrefix(root, seed);
    if !IsUri(seed) {
      var rooted := pre + seed;
      assert rooted[..|pre|] == pre && rooted[|pre|..] == seed;
      if EndsWithJs(seed) {
        assert rooted[|rooted| - 3..] == seed[|seed| - 3..];
      } else if pre != "" {
        assert pre[|pre| - 1] == '/';
        if |seed| >= 3 {
          assert rooted[|rooted| - 3..] == seed[|seed| - 3..];
        } else if |rooted| >= 3 {
          assert rooted[|rooted| - 3..][2 - |seed|] == '/';
        }
      }
      if EndsWithJs(rooted) {
        assert s == rooted;
      } else {
        assert s == rooted + ".js";
        assert s[..|rooted|] == rooted;
        assert s[|s| - 3..] == ".js";
      }
    }
  }

  /** `"foo"` with root `"r"` and no configuration resolves to `"r/foo.js"`. */
  lemma ExampleRooted()
    ensures PathFromModuleName(map[], [], "r", "foo") == Some("r/foo.js")
  {
    assert "foo"[..2][0] == 'f';
    assert !IsUri("foo");
    assert Seed(map[], [], "foo") == "foo";
    assert RootPrefix("r", "foo") + "foo" == "r/foo";
    assert "r/foo"[2..] == "foo";
    assert !EndsWithJs("r/foo");
    assert "r/foo" + ".js" == "r/foo.js";
  }

  /** An absolute URL is returned unchanged, root or not. */
  lemma ExampleUri()
    ensures PathFromModuleName(map[], [], "r", "http://x/y.js") == Some("http://x/y.js")
  {
    assert "http://x/y.js"[..7] == "http://";
  }

  /** A root-relative path takes no root and keeps its `.js`. */
  lemma ExampleRootRelative()
    ensures PathFromModuleName(map[], [], "r", "/lib/a.js") == Some("/lib/a.js")
  {
    assert "/lib/a.js"[..2][1] == 'l';
    assert !IsUri("/lib/a.js");
    assert Seed(map[], [], "/lib/a.js") == "/lib/a.js";
    assert RootPrefix("r", "/lib/a.js") == "";
    assert "" + "/lib/a.js" == "/lib/a.js";
    assert "/lib/a.js"[6..] == ".js";
  }
}

=== FILE: scenarios.dfy ===
/** Whole runs of the loader, from start-up: the boot sequence, the
    mismatch between locking by path and unlocking by module name, a
    sequential chain over a module configured to `null`, and a parallel
    call naming one module twice. */
module Scenarios {
  import opened Wrappers
  import Locks
  import Paths
  import Futures
  import Checkers
  import Configuration
  import Maps
  import Invariants
  import Scheduling
  import opened Engine

  /** A name without a slash, not ending in `.js`, and without an entry
      of its own resolves, under an empty root and no transforms, to the
      name plus `.js`. */
  lemma BareName(paths: map<string, Paths.Override>, name: string)
    requires name !in paths && |name| > 0
    requires forall i :: 0 <= i < |name| ==> name[i] != '/'
    requires !Paths.EndsWithJs(name)
    ensures Paths.PathFromModuleName(paths, [], "", name) == Some(name + ".js")
  {
    assert |name| >= 2 ==> name[..2][0] == name[0];
    assert !Paths.UriAfter(name, "//");
    assert |name| > 7 ==> name[..7][5] == name[5];
    assert !Paths.UriAfter(name, "http://");
    assert |name| > 8 ==> name[..8][6] == name[6];
    assert !Paths.UriAfter(name, "https://");
    assert "" + name == name;
  }

  lemma AppResolves(paths: map<string, Paths.Override>)
    requires "app" !in paths
    ensures Paths.PathFromModuleName(paths, [], "", "app") == Some("app.js")
  {
    assert !Paths.EndsWithJs("app") && forall i :: 0 <= i < |"app"| ==> "app"[i] != '/' by {
      var n := "app";
      assert n[|n| - 3..] == n && ".js"[0] == '.';
    }
    assert "app" + ".js" == "app.js";
    BareName(paths, "app");
  }

  const BootOptions := InitOptions("app", "", 0, Configuration.NoReplacement, true)

  /** The state `init` reaches just before its `loaderFn(app)` call. */
  ghost predicate ReadyToBoot(s: State) {
    && Valid(s) && s.initialized && s.calls == [] && s.fetches == [] && s.bootstraps == 0
    && s.table == Locks.Table(map["app" := false], 1, false)
    && s.config.checker.entries == map[] && Resolve(s, "app") == Some("app.js")
  }

  /** With `boot` set, `init` is `init` without it followed by loading
      the app. */
  lemma InitThenBoot()
    ensures var s := Init(Initial, BootOptions.(boot := false)).state;
      && ReadyToBoot(s)
      && Init(Initial, BootOptions) == Load(s, Single("app"), Defaults)
  {
    AppResolves(map[]);
    Invariants.InitialValid();
    Invariants.InitStep(Initial, BootOptions.(boot := false));
  }

  lemma LoadApp(s: State)
    requires ReadyToBoot(s)
    ensures var o := Load(s, Single("app"), Defaults);
      && o.err.None?
      && o.state.table == Locks.Table(map["app" := false, "app.js" := false], 2, false)
      && o.state.fetches == [Fetch("app.js", ParallelLink(0, "app"), Futures.Pending)]
      && |o.state.calls| == 1 && o.state.calls[0].counter == 1 && o.state.calls[0].result.Pending?
      && PassesAtOnce(o.state.calls[0].checkers, "app")
      && Resolve(o.state, "app") == Some("app.js")
      && o.state.bootstraps == 0
      && Valid(o.state)
  {
    Invariants.LoadStep(s, Single("app"), Defaults);
    assert Keys([Name("app")])[0] == "app";
    Checkers.AbsentPassesUnlessConfigured(Keys([Name("app")]), s.config.checker, "app", {});
  }

  /** `init({app: 'app', boot: true})` locks the app name, then loads the
      app: its path `app.js` is locked and fetched by a parallel call
      waiting on that one load. */
  lemma BootStarts()
    ensures var o := Init(Initial, BootOptions);
      && o.err.None?
      && o.state.table == Locks.Table(map["app" := false, "app.js" := false], 2, false)
      && o.state.fetches == [Fetch("app.js", ParallelLink(0, "app"), Futures.Pending)]
      && |o.state.calls| == 1 && o.state.calls[0].counter == 1 && o.state.calls[0].result.Pending?
      && PassesAtOnce(o.state.calls[0].checkers, "app")
      && Resolve(o.state, "app") == Some("app.js")
      && o.state.bootstraps == 0
      && Valid(o.state)
  {
    InitThenBoot();
    LoadApp(Init(Initial, BootOptions.(boot := false)).state);
  }

  /** The app script defines module `app` with no dependencies: that
      releases the lock on the NAME, while the path stays in flight. */
  lemma AppModuleDefined(s: State)
    requires Valid(s) && Resolve(s, "app") == Some("app.js")
    requires s.table == Locks.Table(map["app" := false, "app.js" := false], 2, false)
    ensures var o := RegisterModule(s, true, Define("app", Some([])));
      && o.err.None?
      && o.state.table == Locks.Table(map["app" := true, "app.js" := false], 1, false)
      && o.state == s.(table := o.state.table)
      && Valid(o.state)
  {
    Invariants.RegisterModuleStep(s, true, Define("app", Some([])));
  }

  /** Then the load event of `app.js` resolves the call, releases the last
      lock, and schedules the bootstrap, once. */
  lemma AppScriptLoaded(s: State)
    requires Valid(s)
    requires s.table == Locks.Table(map["app" := true, "app.js" := false], 1, false)
    requires s.fetches == [Fetch("app.js", ParallelLink(0, "app"), Futures.Pending)]
    requires |s.calls| == 1 && s.calls[0].counter == 1 && s.calls[0].result.Pending?
    requires PassesAtOnce(s.calls[0].checkers, "app") && s.bootstraps == 0
    ensures var o := ScriptLoaded(s, 0, {}, 0);
      && o.err.None?
      && o.state.table == Locks.Table(map["app" := true, "app.js" := true], 0, true)
      && o.state.bootstraps == 1
      && o.state.calls[0].result == Futures.Resolved(Undefined)
  {
  }

  /** A one-letter name other than `/` resolves to itself plus `.js`. */
  lemma LetterResolves(paths: map<string, Paths.Override>, x: char)
    requires x != '/' && [x] !in paths
    ensures Paths.PathFromModuleName(paths, [], "", [x]) == Some([x, '.', 'j', 's'])
  {
    BareName(paths, [x]);
    assert [x] + ".js" == [x, '.', 'j', 's'];
  }

  const RootedOptions := InitOptions("app", "r", 0, Configuration.NoReplacement, false)

  /** The loader locks a script by its PATH, while the module it defines
      unlocks by its NAME: under root `r`, loading `foo` locks `r/foo.js`,
      and the script's own `angular.module('foo', [])` then throws "Path
      'foo' was not loaded", leaving `r/foo.js` in flight. */
  lemma PathLockNameUnlock()
    ensures var s1 := Init(Initial, RootedOptions).state;
      var o2 := Load(s1, Single("foo"), Defaults);
      && o2.err.None?
      && "r/foo.js" in o2.state.table.locks && "foo" !in o2.state.table.locks
      && var o3 := RegisterModule(o2.state, true, Define("foo", Some([])));
      && o3.err == Some(LockFailed(Locks.NotLoaded("foo")))
      && o3.state.table == o2.state.table
  {
    Paths.ExampleRooted();
  }

  const NullB := Configuration.Replacement(Some(Maps.Obj(["b"], map["b" := Paths.NoPath])), None, None)

  const ABC := [Name("a"), Name("b"), Name("c")]

  /** Key `k` has a checker that holds at once. */
  predicate PassesAtOnce(cs: map<string, Checkers.Normal>, k: string) {
    k in cs && Checkers.Holds(cs[k], k, {})
  }

  /** Call 0 is a sequential call waiting on fetch `f` with `rem` left,
      and `b` resolves to null, `c` to `c.js`. */
  ghost predicate Chain(s: State, f: nat, rem: seq<Request>) {
    && Valid(s)
    && |s.calls| == 1 && s.calls[0].sequence && s.calls[0].remaining == rem && s.calls[0].result.Pending?
    && PassesAtOnce(s.calls[0].checkers, "a") && PassesAtOnce(s.calls[0].checkers, "c")
    && Resolve(s, "b") == None && Resolve(s, "c") == Some("c.js")
    && f < |s.fetches| && s.fetches[f].status.Pending?
  }

  /** The state `init` leaves when `b` is configured to `null`. */
  ghost predicate ReadyForABC(s: State) {
    && Valid(s) && s.initialized && s.calls == [] && s.fetches == []
    && s.table == Locks.Table(map["app" := false], 1, false)
    && s.config.checker.entries == map[] && s.timeout == 30000
    && Resolve(s, "a") == Some("a.js") && Resolve(s, "b") == None && Resolve(s, "c") == Some("c.js")
  }

  lemma InitForABC()
    ensures ReadyForABC(Init(Initial, InitOptions("app", "", 0, NullB, false)).state)
  {
    var paths := map["b" := Paths.NoPath];
    LetterResolves(paths, 'a');
    LetterResolves(paths, 'c');
    assert ['a', '.', 'j', 's'] == "a.js" && ['c', '.', 'j', 's'] == "c.js";
    var opts := InitOptions("app", "", 0, NullB, false);
    Invariants.InitialValid();
    Invariants.InitStep(Initial, opts);
  }

  const Sequential := LoadOptions(true, Checkers.Absent, 0, [])

  /** The state once the sequential call over `a`, `b`, `c` is pushed. */
  function WithABC(s1: State): State {
    s1.(calls := [Call(true, ABC, Checkers.Build(Checkers.Absent, Keys(ABC), s1.config.checker), 30000, 0, Futures.Pending)])
  }

  lemma LoadABCPushes(s1: State)
    requires ReadyForABC(s1)
    ensures Load(s1, List(ABC), Sequential) == Advance(WithABC(s1), 0, None)
  {
    assert PreLock(s1, []) == s1;
    assert Requests(List(ABC)) == ABC;
  }

  lemma ABCCheckers(configured: Maps.Object<Checkers.Checker>)
    requires configured.entries == map[]
    ensures var cs := Checkers.Build(Checkers.Absent, Keys(ABC), configured);
      PassesAtOnce(cs, "a") && PassesAtOnce(cs, "c")
  {
    assert Keys(ABC)[0] == "a" && Keys(ABC)[2] == "c";
    Checkers.AbsentPassesUnlessConfigured(Keys(ABC), configured, "a", {});
    Checkers.AbsentPassesUnlessConfigured(Keys(ABC), configured, "c", {});
  }

  lemma LoadABC(s1: State)
    requires ReadyForABC(s1)
    ensures var o2 := Load(s1, List(ABC), Sequential);
      && o2.err.None?
      && o2.state.fetches == [Fetch("a.js", SequenceLink(0, "a", 0), Futures.Pending)]
      && o2.state.table == Locks.Table(map["app" := false, "a.js" := false], 2, false)
      && Chain(o2.state, 0, ABC[1..])
  {
    Invariants.LoadStep(s1, List(ABC), Sequential);
    LoadABCPushes(s1);
    ABCCheckers(s1.config.checker);
    var s2 := WithABC(s1);
    assert RequestPath(s2, ABC[0], "src") == Some("a.js");
    Scheduling.AdvanceFetchesFirst(s2, 0, None);
  }

  /** A sequential call over `a`, `b`, `c` where `b` is configured to
      `null` fetches `a.js` alone first and keeps `b`, `c` for later. */
  lemma SequenceStarts()
    ensures var s1 := Init(Initial, InitOptions("app", "", 0, NullB, false)).state;
      var o2 := Load(s1, List(ABC), Sequential);
      && o2.err.None?
      && o2.state.fetches == [Fetch("a.js", SequenceLink(0, "a", 0), Futures.Pending)]
      && o2.state.table == Locks.Table(map["app" := false, "a.js" := false], 2, false)
      && Chain(o2.state, 0, ABC[1..])
  {
    InitForABC();
    LoadABC(Init(Initial, InitOptions("app", "", 0, NullB, false)).state);
  }

  /** The load of `a.js` skips `b`, whose path is null, fetches `c.js`,
      and releases the lock of `a.js`. */
  lemma FirstLoadSkipsNull(s: State)
    requires Chain(s, 0, ABC[1..])
    requires s.fetches == [Fetch("a.js", SequenceLink(0, "a", 0), Futures.Pending)]
    requires s.table == Locks.Table(map["app" := false, "a.js" := false], 2, false)
    ensures var o := ScriptLoaded(s, 0, {}, 0);
      && o.err.None?
      && o.state.fetches == [Fetch("a.js", SequenceLink(0, "a", 0), Futures.Resolved(LoadEvent(0))),
                             Fetch("c.js", SequenceLink(0, "c", 0), Futures.Pending)]
      && o.state.table == Locks.Table(map["app" := false, "a.js" := true, "c.js" := false], 2, false)
      && Chain(o.state, 1, [])
  {
    Invariants.ScriptLoadedStep(s, 0, {}, 0);
    assert ABC[1..] == [Name("b"), Name("c")];
    var t1 := WithCall(s, 0, s.calls[0].(remaining := [Name("c")]));
    assert Resolve(t1, "b") == None;
    assert Advance(s, 0, Some(0)) == Advance(t1, 0, Some(0));
    assert t1.calls[0].remaining[0] == Name("c") && t1.calls[0].remaining[1..] == [];
    var t2 := WithCall(t1, 0, t1.calls[0].(remaining := []));
    assert Fetchable(t2, Resolve(t2, "c"));
    assert Resolve(t2, "c") == Some("c.js");
    assert "c.js"[0] != "a.js"[0] && "c.js" !in t2.table.locks;
    var a1 := Advance(t1, 0, Some(0));
    assert a1 == Outcome(Issue(Lock(t2, "c.js").state, "c.js", SequenceLink(0, "c", 0)), None);
  }

  /** With the list used up, the load of `c.js` resolves the call with
      that load event and releases the last script lock. */
  lemma SecondLoadResolves(s: State)
    requires Chain(s, 1, [])
    requires s.fetches[1] == Fetch("c.js", SequenceLink(0, "c", 0), Futures.Pending)
    requires s.table == Locks.Table(map["app" := false, "a.js" := true, "c.js" := false], 2, false)
    ensures var o := ScriptLoaded(s, 1, {}, 0);
      && o.err.None?
      && o.state.calls[0].result == Futures.Resolved(LoadEvent(1))
      && o.state.table.locks == map["app" := false, "a.js" := true, "c.js" := true]
  {
    var a2 := Advance(s, 0, Some(1));
    assert a2.state.fetches[1].link == SequenceLink(0, "c", 1);
  }

  /** A parallel call naming `a` twice fetches `a.js` once and waits for
      that one load. */
  lemma ParallelFetchesOnce()
    ensures var s1 := Init(Initial, InitOptions("app", "", 0, Configuration.NoReplacement, false)).state;
      var o2 := Load(s1, List([Name("a"), Name("a")]), Defaults);
      && o2.err.None?
      && o2.state.fetches == [Fetch("a.js", ParallelLink(0, "a"), Futures.Pending)]
      && o2.state.calls[0].counter == 1
      && o2.state.calls[0].result.Pending?
  {
    LetterResolves(map[], 'a');
    assert ['a', '.', 'j', 's'] == "a.js";
  }
}

=== FILE: scheduling.dfy ===
/** What one `loaderFn` call schedules: which paths the parallel loop
    locks and fetches, which request the sequential chain takes next, and
    how the returned promise settles when nothing needs fetching. */
module Scheduling {
  import opened Wrappers
  import Futures
  import opened Engine

  /** The paths of the fetches issued between `s` and `t`. */
  ghost function NewPaths(s: State, t: State): set<string>
    requires |s.fetches| <= |t.fetches|
  {
    set j | |s.fetches| <= j < |t.fetches| :: t.fetches[j].path
  }

  /** A fetch of call `c`, pending, for a non-empty path that was not
      locked in `s`. */
  ghost predicate FreshFetch(s: State, fe: Fetch, c: nat) {
    && fe.path != "" && fe.path !in s.table.locks
    && fe.link.ParallelLink? && fe.link.call == c && fe.status.Pending?
  }

  /** What the parallel loop does between `s` and `t`: it only appends
      fetches, each a fresh fetch of call `c` counted on the call; it locks
      exactly the paths it fetches, each with an in-flight lock, keeps every
      earlier lock as it was, never fetches one path twice and leaves the
      configuration alone. */
  ghost predicate Appends(s: State, t: State, c: nat)
    requires c < |s.calls|
  {
    && |t.calls| == |s.calls|
    && |s.fetches| <= |t.fetches| && t.fetches[..|s.fetches|] == s.fetches
    && t.calls[c].counter == s.calls[c].counter + (|t.fetches| - |s.fetches|)
    && t.calls[c].result == s.calls[c].result
    && t.config == s.config && t.root == s.root
    && (forall k :: k in t.table.locks <==> k in s.table.locks || k in NewPaths(s, t))
    && (forall k :: k in s.table.locks ==> t.table.locks[k] == s.table.locks[k])
    && (forall j :: |s.fetches| <= j < |t.fetches| ==> FreshFetch(s, t.fetches[j], c) && !t.table.locks[t.fetches[j].path])
    && (forall j1, j2 :: |s.fetches| <= j1 < j2 < |t.fetches| ==> t.fetches[j1].path != t.fetches[j2].path)
  }

  /** One turn of the loop skips a null, empty or locked path without any
      change; otherwise it issues one fetch, of the request's resolved
      path under the request's key. */
  lemma VisitAppends(s: State, c: nat, req: Request, n: string)
    requires c < |s.calls|
    ensures Appends(s, Visit(s, c, req, n), c)
    ensures !Fetchable(s, Resolve(s, n)) ==> Visit(s, c, req, n) == s
    ensures var t := Visit(s, c, req, n);
      Fetchable(s, Resolve(s, n)) ==>
        && |t.fetches| == |s.fetches| + 1
        && t.fetches[|s.fetches|] == Fetch(Resolve(s, n).value, ParallelLink(c, Key(req)), Futures.Pending)
  {
    var t := Visit(s, c, req, n);
    if Fetchable(s, Resolve(s, n)) {
      var p := Resolve(s, n).value;
      assert t.fetches[|s.fetches|].path == p;
      forall k | k in NewPaths(s, t)
        ensures k == p
      {
        var j :| |s.fetches| <= j < |t.fetches| && t.fetches[j].path == k;
      }
      assert NewPaths(s, t) == {p};
    } else {
      assert NewPaths(s, t) == {};
    }
  }

  lemma AppendsTransitive(s: State, u: State, t: State, c: nat)
    requires c < |s.calls|
    requires Appends(s, u, c) && Appends(u, t, c)
    ensures Appends(s, t, c)
  {
    assert t.fetches[..|u.fetches|][..|s.fetches|] == t.fetches[..|s.fetches|];
    forall j | 0 <= j < |u.fetches|
      ensures t.fetches[j] == u.fetches[j]
    {
      assert t.fetches[..|u.fetches|][j] == t.fetches[j];
    }
    assert NewPaths(s, t) == NewPaths(s, u) + NewPaths(u, t);
    forall j | |s.fetches| <= j < |t.fetches|
      ensures FreshFetch(s, t.fetches[j], c) && !t.table.locks[t.fetches[j].path]
    {
      if j < |u.fetches| {
        assert t.fetches[j].path in NewPaths(s, u);
      }
    }
    forall j1, j2 | |s.fetches| <= j1 < j2 < |t.fetches|
      ensures t.fetches[j1].path != t.fetches[j2].path
    {
      if j1 < |u.fetches| <= j2 {
        assert t.fetches[j1].path in NewPaths(s, u);
      }
    }
  }

  /** The whole parallel loop is one `Appends` step. */
  lemma {:induction false} ParallelAppends(s: State, c: nat, reqs: seq<Request>)
    requires c < |s.calls|
    ensures Appends(s, Parallel(s, c, reqs).state, c)
    decreases |reqs|
  {
    if reqs == [] || Field(reqs[0], "name").None? {
      assert NewPaths(s, s) == {};
      assert s.fetches[..|s.fetches|] == s.fetches;
    } else {
      var n := Field(reqs[0], "name").value;
      var u := Visit(s, c, reqs[0], n);
      VisitAppends(s, c, reqs[0], n);
      ParallelAppends(u, c, reqs[1..]);
      AppendsTransitive(s, u, Parallel(u, c, reqs[1..]).state, c);
    }
  }

  /** Fetch `fe` is one the parallel loop of call `c` issues for one of
      `reqs`: its path is that request's resolved path, and its link
      carries the request's key. */
  ghost predicate FromRequest(s: State, fe: Fetch, c: nat, reqs: seq<Request>) {
    exists i :: 0 <= i < |reqs| && RequestPath(s, reqs[i], "name") == Some(fe.path) && fe.link == ParallelLink(c, Key(reqs[i]))
  }

  /** Every fetch the parallel loop issues, and so every lock it takes,
      comes from one of the requests, under that request's key. */
  lemma {:induction false} ParallelFetchesFromRequests(s: State, c: nat, reqs: seq<Request>)
    requires c < |s.calls|
    ensures var t := Parallel(s, c, reqs).state;
      |s.fetches| <= |t.fetches| && forall j :: |s.fetches| <= j < |t.fetches| ==> FromRequest(s, t.fetches[j], c, reqs)
    decreases |reqs|
  {
    if reqs != [] && Field(reqs[0], "name").Some? {
      var n := Field(reqs[0], "name").value;
      var u := Visit(s, c, reqs[0], n);
      VisitAppends(s, c, reqs[0], n);
      ParallelAppends(u, c, reqs[1..]);
      ParallelFetchesFromRequests(u, c, reqs[1..]);
      var t := Parallel(u, c, reqs[1..]).state;
      forall j | |s.fetches| <= j < |t.fetches|
        ensures FromRequest(s, t.fetches[j], c, reqs)
      {
        if j < |u.fetches| {
          assert t.fetches[..|u.fetches|][j] == t.fetches[j];
          assert RequestPath(s, reqs[0], "name") == Resolve(s, n);
        } else {
          FromRequestShift(s, u, t.fetches[j], c, reqs);
        }
      }
    }
  }

  /** A fetch from one of the later requests is a fetch from the list. */
  lemma FromRequestShift(s: State, u: State, fe: Fetch, c: nat, reqs: seq<Request>)
    requires reqs != [] && u.config == s.config && u.root == s.root
    requires FromRequest(u, fe, c, reqs[1..])
    ensures FromRequest(s, fe, c, reqs)
  {
    var i :| 0 <= i < |reqs[1..]| && RequestPath(u, reqs[1..][i], "name") == Some(fe.path) && fe.link == ParallelLink(c, Key(reqs[1..][i]));
    assert reqs[i + 1] == reqs[1..][i];
    assert RequestPath(s, reqs[i + 1], "name") == RequestPath(u, reqs[i + 1], "name");
  }

  /** When the loop completes, every request whose path resolves to a
      non-empty string is locked afterwards: fetched now, or locked
      already. A request without a `name` is the only way to fail. */
  lemma {:induction false} ParallelCoversRequests(s: State, c: nat, reqs: seq<Request>)
    requires c < |s.calls|
    ensures var o := Parallel(s, c, reqs);
      && (o.err.None? || o.err == Some(MissingField("name")))
      && (o.err.None? ==>
            forall i :: 0 <= i < |reqs| && RequestPath(s, reqs[i], "name").Some? && RequestPath(s, reqs[i], "name").value != "" ==>
              RequestPath(s, reqs[i], "name").value in o.state.table.locks)
    decreases |reqs|
  {
    if reqs != [] && Field(reqs[0], "name").Some? {
      var n := Field(reqs[0], "name").value;
      var u := Visit(s, c, reqs[0], n);
      VisitAppends(s, c, reqs[0], n);
      ParallelCoversRequests(u, c, reqs[1..]);
      ParallelAppends(u, c, reqs[1..]);
      var o := Parallel(u, c, reqs[1..]);
      if o.err.None? {
        forall i | 0 <= i < |reqs| && RequestPath(s, reqs[i], "name").Some? && RequestPath(s, reqs[i], "name").value != ""
          ensures RequestPath(s, reqs[i], "name").value in o.state.table.locks
        {
          if i > 0 {
            assert reqs[1..][i - 1] == reqs[i];
          }
        }
      }
    }
  }

  /** What `Advance` leaves of the call's list is a suffix of it. */
  ghost predicate LeavesSuffix(s: State, c: nat, d: Option<nat>)
    requires c < |s.calls|
    requires d.Some? ==> d.value < |s.fetches|
  {
    var rem := s.calls[c].remaining; var rest := Advance(s, c, d).state.calls[c].remaining;
    |rest| <= |rem| && rest == rem[|rem| - |rest|..]
  }

  lemma {:induction false} AdvanceSuffix(s: State, c: nat, d: Option<nat>)
    requires c < |s.calls|
    requires d.Some? ==> d.value < |s.fetches|
    ensures LeavesSuffix(s, c, d)
    decreases |s.calls[c].remaining|
  {
    var rem := s.calls[c].remaining;
    if rem != [] {
      if Field(rem[0], "src").Some? && !Fetchable(s, RequestPath(s, rem[0], "src")) {
        AdvanceSuffix(Skip(s, c), c, d);
        AdvanceSkipSuffix(s, c, d);
      } else {
        AdvanceTakesOne(s, c, d);
        assert rem[1..] == rem[|rem| - |rem[1..]|..];
      }
    }
  }

  /** Skipping an unfetchable first request keeps `LeavesSuffix`. */
  lemma AdvanceSkipSuffix(s: State, c: nat, d: Option<nat>)
    requires c < |s.calls| && s.calls[c].remaining != [] && Field(s.calls[c].remaining[0], "src").Some?
    requires d.Some? ==> d.value < |s.fetches|
    requires !Fetchable(s, RequestPath(s, s.calls[c].remaining[0], "src"))
    requires LeavesSuffix(Skip(s, c), c, d)
    ensures LeavesSuffix(s, c, d)
  {
    var rem := s.calls[c].remaining;
    var s1 := Skip(s, c);
    assert Resolve(s1, Field(rem[0], "src").value) == RequestPath(s, rem[0], "src");
    var rest := Advance(s1, c, d).state.calls[c].remaining;
    assert Advance(s, c, d).state.calls[c].remaining == rest;
    assert rem[1..][|rem| - 1 - |rest|..] == rem[|rem| - |rest|..];
  }

  /** A first request that is not skipped is the last one taken. */
  lemma AdvanceTakesOne(s: State, c: nat, d: Option<nat>)
    requires c < |s.calls| && s.calls[c].remaining != []
    requires d.Some? ==> d.value < |s.fetches|
    requires var r := s.calls[c].remaining[0]; Field(r, "src").Some? ==> Fetchable(s, RequestPath(s, r, "src"))
    ensures Advance(s, c, d).state.calls[c].remaining == s.calls[c].remaining[1..]
  {
    var rem := s.calls[c].remaining;
    var s1 := Skip(s, c);
    if Field(rem[0], "src").Some? {
      assert Resolve(s1, Field(rem[0], "src").value) == RequestPath(s, rem[0], "src");
    }
  }

  /** `Advance` fetches at most one script. */
  lemma {:induction false} AdvanceFetchesAtMostOne(s: State, c: nat, d: Option<nat>)
    requires c < |s.calls|
    requires d.Some? ==> d.value < |s.fetches|
    ensures var n := |Advance(s, c, d).state.fetches|; n == |s.fetches| || n == |s.fetches| + 1
    decreases |s.calls[c].remaining|
  {
    var call := s.calls[c];
    var rem := call.remaining;
    if rem != [] && Field(rem[0], "src").Some? {
      var s1 := WithCall(s, c, call.(remaining := rem[1..]));
      if !Fetchable(s1, Resolve(s1, Field(rem[0], "src").value)) {
        AdvanceFetchesAtMostOne(s1, c, d);
      }
    }
  }

  /** Every request `Advance` took before the last was skipped: its path
      is null, empty or locked. */
  lemma {:induction false} AdvanceSkipsUnfetchable(s: State, c: nat, d: Option<nat>)
    requires c < |s.calls|
    requires d.Some? ==> d.value < |s.fetches|
    ensures var rem := s.calls[c].remaining; var rest := Advance(s, c, d).state.calls[c].remaining;
      forall i :: 0 <= i < |rem| - |rest| - 1 ==> !Fetchable(s, RequestPath(s, rem[i], "src"))
    decreases |s.calls[c].remaining|
  {
    var call := s.calls[c];
    var rem := call.remaining;
    if rem != [] && Field(rem[0], "src").Some? {
      var s1 := WithCall(s, c, call.(remaining := rem[1..]));
      if !Fetchable(s1, Resolve(s1, Field(rem[0], "src").value)) {
        AdvanceSkipsUnfetchable(s1, c, d);
        var rest := Advance(s1, c, d).state.calls[c].remaining;
        forall i | 0 < i < |rem| - |rest| - 1
          ensures !Fetchable(s, RequestPath(s, rem[i], "src"))
        {
          assert rem[1..][i - 1] == rem[i];
        }
      }
    }
  }

  /** `Advance` takes requests off the front of the call's list, and
      every one it took before the last was skipped: its path is null,
      empty or locked. It fetches at most one script. */
  lemma AdvanceSkips(s: State, c: nat, d: Option<nat>)
    requires c < |s.calls|
    requires d.Some? ==> d.value < |s.fetches|
    ensures var o := Advance(s, c, d);
      var rem := s.calls[c].remaining; var rest := o.state.calls[c].remaining;
      && |rest| <= |rem| && rest == rem[|rem| - |rest|..]
      && (forall i :: 0 <= i < |rem| - |rest| - 1 ==> !Fetchable(s, RequestPath(s, rem[i], "src")))
      && (|o.state.fetches| == |s.fetches| || |o.state.fetches| == |s.fetches| + 1)
  {
    AdvanceSuffix(s, c, d);
    AdvanceSkipsUnfetchable(s, c, d);
    AdvanceFetchesAtMostOne(s, c, d);
  }

  /** When `Advance` fetches, the script is the path of the last request
      it took, that path was fetchable, and it is the one lock added. */
  ghost predicate FetchesLastTaken(s: State, c: nat, d: Option<nat>)
    requires c < |s.calls|
    requires d.Some? ==> d.value < |s.fetches|
  {
    FetchedLast(s, c, Advance(s, c, d))
  }

  /** Outcome `o` of the sequential step from `s`, when it fetched, fetched
      the path of the last request it took; that path was fetchable, and
      it is the one lock added. */
  ghost predicate FetchedLast(s: State, c: nat, o: Outcome)
    requires c < |s.calls| && |o.state.calls| == |s.calls|
  {
    var t := o.state; var n := |s.fetches|;
    var rem := s.calls[c].remaining; var taken := |rem| - |t.calls[c].remaining|;
    o.err.None? && |t.fetches| == n + 1 ==>
      && 1 <= taken <= |rem|
      && Fetchable(s, RequestPath(s, rem[taken - 1], "src"))
      && t.fetches[n] == Fetch(RequestPath(s, rem[taken - 1], "src").value, SequenceLink(c, Key(rem[taken - 1]), 0), Futures.Pending)
      && t.table.locks == s.table.locks[t.fetches[n].path := false]
  }

  /** The call `c` with its first request taken off. */
  function Skip(s: State, c: nat): State
    requires c < |s.calls| && s.calls[c].remaining != []
  {
    WithCall(s, c, s.calls[c].(remaining := s.calls[c].remaining[1..]))
  }

  lemma {:induction false} AdvanceFetchesLastTaken(s: State, c: nat, d: Option<nat>)
    requires c < |s.calls|
    requires d.Some? ==> d.value < |s.fetches|
    ensures FetchesLastTaken(s, c, d)
    decreases |s.calls[c].remaining|
  {
    var rem := s.calls[c].remaining;
    if rem != [] && Field(rem[0], "src").Some? {
      if Fetchable(s, RequestPath(s, rem[0], "src")) {
        AdvanceFetchesFirst(s, c, d);
      } else {
        AdvanceFetchesLastTaken(Skip(s, c), c, d);
        AdvanceSkipOne(s, c, d);
      }
    }
  }

  /** Skipping an unfetchable first request keeps `FetchesLastTaken`. */
  lemma AdvanceSkipOne(s: State, c: nat, d: Option<nat>)
    requires c < |s.calls| && s.calls[c].remaining != [] && Field(s.calls[c].remaining[0], "src").Some?
    requires d.Some? ==> d.value < |s.fetches|
    requires !Fetchable(s, RequestPath(s, s.calls[c].remaining[0], "src"))
    requires FetchesLastTaken(Skip(s, c), c, d)
    ensures FetchesLastTaken(s, c, d)
  {
    var rem := s.calls[c].remaining;
    var s1 := Skip(s, c);
    assert Resolve(s1, Field(rem[0], "src").value) == RequestPath(s, rem[0], "src");
    assert Advance(s, c, d) == Advance(s1, c, d);
    AdvanceSuffix(s1, c, d);
    var t := Advance(s1, c, d).state;
    if Advance(s1, c, d).err.None? && |t.fetches| == |s.fetches| + 1 {
      var taken1 := |rem[1..]| - |t.calls[c].remaining|;
      assert rem[1..][taken1 - 1] == rem[taken1];
      assert RequestPath(s1, rem[taken1], "src") == RequestPath(s, rem[taken1], "src");
    }
  }

  /** The case where the first request taken is fetched. */
  lemma AdvanceFetchesFirst(s: State, c: nat, d: Option<nat>)
    requires c < |s.calls| && s.calls[c].remaining != [] && Field(s.calls[c].remaining[0], "src").Some?
    requires d.Some? ==> d.value < |s.fetches|
    requires var rem := s.calls[c].remaining;
      Fetchable(s, RequestPath(s, rem[0], "src"))
    ensures var o := Advance(s, c, d); var t := o.state; var rem := s.calls[c].remaining;
      && o.err.None? && |t.fetches| == |s.fetches| + 1
      && |t.calls[c].remaining| == |rem| - 1
      && t.fetches[|s.fetches|] == Fetch(RequestPath(s, rem[0], "src").value, SequenceLink(c, Key(rem[0]), 0), Futures.Pending)
      && t.table.locks == s.table.locks[t.fetches[|s.fetches|].path := false]
  {
    var rem := s.calls[c].remaining;
    var s1 := WithCall(s, c, s.calls[c].(remaining := rem[1..]));
    assert Resolve(s1, Field(rem[0], "src").value) == RequestPath(s, rem[0], "src");
  }

  /** When `Advance` fetches nothing, it used up the list without taking a
      lock, and the call either resolves with `undefined` (nothing was
      fetched before) or gains one more subscription to fetch `d`. */
  lemma {:induction false} AdvanceExhausts(s: State, c: nat, d: Option<nat>)
    requires c < |s.calls|
    requires d.Some? ==> d.value < |s.fetches|
    ensures var o := Advance(s, c, d); var t := o.state;
      o.err.None? && |t.fetches| == |s.fetches| ==>
        && t.calls[c].remaining == []
        && t.table == s.table
        && (d.None? ==> t.calls[c].result == Futures.Resolved(Undefined))
        && (d.Some? && s.fetches[d.value].link.SequenceLink? ==>
              && t.fetches[d.value].link.SequenceLink?
              && t.fetches[d.value].link.forwards == s.fetches[d.value].link.forwards + 1)
    decreases |s.calls[c].remaining|
  {
    var call := s.calls[c];
    var rem := call.remaining;
    if rem != [] && Field(rem[0], "src").Some? {
      var s1 := WithCall(s, c, call.(remaining := rem[1..]));
      var p := Resolve(s1, Field(rem[0], "src").value);
      if !Fetchable(s1, p) {
        AdvanceExhausts(s1, c, d);
      }
    }
  }

  /** `Advance` keeps the call's checkers and timeout; continuing from a
      fetch it never settles the call; and when it fetches, the earlier
      fetches are untouched. */
  lemma {:induction false} AdvanceKeeps(s: State, c: nat, d: Option<nat>)
    requires c < |s.calls|
    requires d.Some? ==> d.value < |s.fetches|
    ensures var t := Advance(s, c, d).state;
      && t.calls[c].checkers == s.calls[c].checkers && t.calls[c].timeout == s.calls[c].timeout
      && (d.Some? ==> t.calls[c].result == s.calls[c].result)
      && (|t.fetches| > |s.fetches| ==> forall j :: 0 <= j < |s.fetches| ==> t.fetches[j] == s.fetches[j])
    decreases |s.calls[c].remaining|
  {
    var call := s.calls[c];
    if call.remaining != [] && Field(call.remaining[0], "src").Some? {
      var s1 := WithCall(s, c, call.(remaining := call.remaining[1..]));
      if !Fetchable(s1, Resolve(s1, Field(call.remaining[0], "src").value)) {
        AdvanceKeeps(s1, c, d);
      }
    }
  }

  /** A `loaderFn` call before `init` does nothing but fail. */
  lemma LoadNeedsInit(s: State, arg: PathArg, opts: LoadOptions)
    requires !s.initialized
    ensures Load(s, arg, opts) == Outcome(s, Some(NotInitialized))
  {
  }

  /** An empty list of requests takes no lock, fetches nothing and yields a
      promise already resolved with `undefined`. */
  lemma LoadEmptyList(s: State, opts: LoadOptions)
    requires s.initialized
    ensures var o := Load(s, List([]), opts);
      && o.err.None?
      && o.state.table == s.table && o.state.fetches == s.fetches
      && o.state.calls[|s.calls|].result == Futures.Resolved(Undefined)
  {
  }

  /** A parallel call counts one outstanding fetch per path it issued; its
      promise is resolved with `true` at once exactly when it issued none,
      and otherwise stays pending. */
  lemma LoadParallelCounts(s: State, reqs: seq<Request>, opts: LoadOptions)
    requires s.initialized && reqs != [] && !opts.sequence
    ensures var o := Load(s, List(reqs), opts); var t := o.state; var c := |s.calls|;
      o.err.None? ==>
        && t.calls[c].counter == |t.fetches| - |s.fetches|
        && (t.calls[c].result == Futures.Resolved(True) <==> |t.fetches| == |s.fetches|)
        && (t.calls[c].result.Pending? <==> |t.fetches| > |s.fetches|)
  {
    var checkers := Checkers.Build(opts.checker, Keys(reqs), s.config.checker);
    var timeout := if opts.timeout > 0 then opts.timeout else s.timeout;
    var s1 := PreLock(s, opts.modules);
    var c := |s1.calls|;
    var s2 := s1.(calls := s1.calls + [Call(false, reqs, checkers, timeout, 0, Futures.Pending)]);
    ParallelAppends(s2, c, reqs);
    var t := Parallel(s2, c, reqs).state;
    assert t.calls[c].counter == |t.fetches| - |s.fetches|;
    if Parallel(s2, c, reqs).err.None? {
      assert Load(s, List(reqs), opts).state == ParallelDone(t, c);
    }
  }

  /** A sequential call fetches at most one script up front: the first
      request whose path is fetchable, after locking it. */
  lemma LoadSequentialStarts(s: State, reqs: seq<Request>, opts: LoadOptions)
    requires s.initialized && reqs != [] && opts.sequence
    ensures var o := Load(s, List(reqs), opts); var t := o.state; var n := |s.fetches|;
      var s1 := PreLock(s, opts.modules);
      && (|t.fetches| == n || |t.fetches| == n + 1)
      && (o.err.None? && |t.fetches| == n + 1 ==>
            exists i :: 0 <= i < |reqs|
              && (forall i' :: 0 <= i' < i ==> !Fetchable(s1, RequestPath(s1, reqs[i'], "src")))
              && Fetchable(s1, RequestPath(s1, reqs[i], "src"))
              && t.fetches[n].path == RequestPath(s1, reqs[i], "src").value)
      && (o.err.None? && |t.fetches| == n ==> t.calls[|s.calls|].result == Futures.Resolved(Undefined))
  {
    var checkers := Checkers.Build(opts.checker, Keys(reqs), s.config.checker);
    var timeout := if opts.timeout > 0 then opts.timeout else s.timeout;
    var s1 := PreLock(s, opts.modules);
    var c := |s1.calls|;
    var s2 := s1.(calls := s1.calls + [Call(true, reqs, checkers, timeout, 0, Futures.Pending)]);
    AdvanceSkips(s2, c, None);
    AdvanceFetchesLastTaken(s2, c, None);
    AdvanceExhausts(s2, c, None);
    var o := Advance(s2, c, None);
    if o.err.None? && |o.state.fetches| == |s.fetches| + 1 {
      var i := |reqs| - |o.state.calls[c].remaining| - 1;
      assert forall r :: RequestPath(s2, r, "src") == RequestPath(s1, r, "src");
      assert forall p :: Fetchable(s2, p) == Fetchable(s1, p);
    }
  }
}

=== FILE: wrappers.dfy ===
/** The optional value used throughout the model for JavaScript's `null`,
    `undefined` and "not thrown". */
module Wrappers {
  datatype Option<+T> = None | Some(value: T)
}
